=== FILE: README.md ===
# Insurance-document question answering and RFP extraction, modelled in Dafny

This project models the deterministic text and list handling of two
language-model pipelines.

- **Insurance question answering.** A downloaded policy document is cut
  into fixed-width chunks. Each chunk is wrapped in a record
  (`file_name`, `chunk_id`, `text`) and embedded. For every question the
  top-k chunks are retrieved by similarity. The retrieved texts of all
  questions are concatenated into one context. The model's single
  `|`-separated reply is split into the answer list.
- **RFP extractor.** A document is read as PDF or HTML, chosen by its
  lower-cased file suffix. HTML text is cleaned line by line. The first
  12000 characters go into the extraction prompt. The model's reply is
  stripped of markdown code fences and parsed as JSON. Missing fields are
  filled with "Not specified". A reply that does not parse gives a template
  of "Error extracting" values. The result is wrapped with the document's
  name and type. A batch processes many paths and records failures instead
  of stopping.

The embedding model, the similarity function, the chat completion,
`json.loads`, the file system, the environment variable holding the API
key and the PDF/HTML readers are parameters (`encode`, `sim`, `complete`,
`parse`, `fileExists`, `apiKeySet`, `readText`). Scores are unbounded
integers on a total order. Where the code raises, the model returns an
`Err` value naming the exception: in `query_llm` (missing API key, search
over no chunks, failed chat call, `None` reply content), in `chunk_text`
(a zero chunk size) and throughout the RFP extractor.

Files, one module each:

- `outcomes.dfy`: `Outcomes`, the `Result` type.
- `strings.dfy`: `Strings`, the Python `str` operations the code uses:
  `isspace`, `strip`/`lstrip`/`rstrip`, `split`, `join`, `splitlines`,
  `rfind`, ASCII `lower`, and the `in` substring test.
- `extract_chunk_support.dfy`: `ExtractChunkSupport`, which is `chunk_text`.
- `parse_chunks.dfy`: `ParseChunks`, which is `parse_chunk`.
- `pinecone_db.dfy`: `PineconeDb`, which is `embed_chunks` and `search`.
- `query.dfy`: `Query`, which is `query_llm`.
- `rfp_extractor.dfy`: `RfpExtractor`, which is the `RFPExtractor` class.

What the code does, and so what the model does:

- `chunk_text` cuts fixed-width slices, with no sentence alignment and no
  overlap;
- `query_llm` sends the questions as they are, with no keyword expansion;
- `query_llm` calls the model once and never retries with a smaller
  context;
- every non-empty answer is kept, including one that starts with "-";
- among equal scores `search` makes no promise about order;
- the number of answers follows the `|` characters in the reply, not the
  number of questions.

## Model

| member | source | states |
|---|---|---|
| ExtractChunkSupport.ChunkText | extract_chunk_support.py:18-19 | A zero `chunk_size` is the `range` error. A negative one gives no chunks. A positive one gives chunks that concatenate back to exactly the text. |
| ExtractChunkSupport.ChunkTextShape | extract_chunk_support.py:18-19 | For a positive size, the number of chunks is the ceiling of len/size, and empty text gives no chunks. Every chunk is non-empty and at most size long, and all but the last are exactly size long. Chunk i is `text[i*size : min((i+1)*size, len)]`. |
| ExtractChunkSupport.ChunksAdjacent | extract_chunk_support.py:19 | Two consecutive chunks together are the contiguous slice starting at `i*size`, so chunks neither overlap nor leave gaps. |
| ParseChunks.ParseChunk | parse_chunks.py:5-17 | There is one record per chunk of the default-width chunking. Record i is `{file_name: 'Insurance', chunk_id: i, text: chunk i}`. |
| ParseChunks.ParseChunkReconstructs | parse_chunks.py:6-14 | Concatenating the record texts in order gives back the extracted document text. |
| ParseChunks.ParseChunkIds | parse_chunks.py:8-13 | The ids are 0, 1, 2, … and ascending in list order. Every text is non-empty and at most 500 characters. |
| PineconeDb.EmbedChunks | pinecone_db.py:9-13 | The chunk list comes back unchanged, with exactly one embedding per chunk. Embedding i is the encoding of chunk i's text. |
| PineconeDb.Scores | pinecone_db.py:17-18 | There is one score per embedding row. Score i compares the query's encoding with embedding i. |
| PineconeDb.ArgsortDescending | pinecone_db.py:19 | `argsort()[::-1]` lists every index exactly once, in non-increasing score order. |
| PineconeDb.TopIndices | pinecone_db.py:19 | `[:top_k]` of that order has `len(x[:top_k])` entries, negative `top_k` included. The indices are distinct, in range and ranked. No index left out scores above one taken. |
| PineconeDb.Search | pinecone_db.py:16-20 | The number of texts returned is `min(top_k, len(chunks))` for a non-negative `top_k`, following Python slice length in general. |
| PineconeDb.SearchReturnsTopK | pinecone_db.py:16-20 | Position by position, the returned texts are the chunk texts of a top-`top_k` selection: distinct, best first, and with no better chunk left out. |
| Query.ContextConcat | query.py:17-21 | The context of two question lists in sequence is the concatenation of their contexts. Nothing is inserted between questions. |
| Query.BuildContext | query.py:17-21 | The loop starting from `''` yields the in-order concatenation of each question's `'\n\n'`-joined retrieval, duplicates kept. No questions gives `''`. |
| Query.RetrievedTextInContext | query.py:18-21 | Every text retrieved for any question occurs in the context. |
| Query.SplitAnswers | query.py:48-49 | There are at most (number of `\|` in the reply) + 1 answers. Each answer is stripped and contains no `\|`. |
| Query.AnswersArePieces | query.py:48-49 | The answers are the non-empty `\|`-pieces of the reply, in their original order, each stripped. Every non-empty piece is kept and no empty one is. An answer is `""` exactly when its piece was whitespace only. |
| Query.KeptComplete | query.py:49 | Every piece that is non-empty before stripping is among the kept positions. |
| Query.AnswersKept | query.py:49 | Answer i is the stripped piece at the i-th kept position. |
| Query.AnswersAllKept | query.py:49 | When no piece is empty, every piece yields an answer, in order. |
| Query.SingleAnswer | query.py:48-49 | A non-empty reply without `\|` gives exactly one answer: the stripped reply. |
| Query.ReplyRoundTrip | query.py:48-49 | Non-empty, `\|`-free parts joined by `\|` split back into one answer per part. Parts that are already stripped come back unchanged. |
| Query.ContextAround | query.py:17-21 | The context is the earlier questions' context, then question q's retrieved block, then the later questions' context. |
| Query.AnswersOf | query.py:49 | There are at most as many answers as pieces, and every answer is stripped. |
| Query.QueryLlm | query.py:9-53 | A missing API key raises first. With questions but no chunks, the first search raises on the empty embedding matrix. Otherwise a failed chat call raises, `None` content raises when split, and a reply gives the single `answers` list split from the model's reply to the context built from all questions over the embedded chunks. |
| RfpExtractor.ExpectedFieldsDistinct | rfp_extractor.py:24-45 | There are twenty expected field names, all distinct. |
| RfpExtractor.FillDefaults | rfp_extractor.py:236-241 | Present keys keep their values. Every field becomes a key. A key that was missing gets "Not specified". No other key is added. |
| RfpExtractor.ErrorTemplate | rfp_extractor.py:243-247 | The keys are exactly the fields, each mapped to "Error extracting". |
| RfpExtractor.EnsureFields | rfp_extractor.py:236-241 | An object always succeeds, with defaults filled. A list or string with every field already `in` it comes back unchanged. Any other value raises, and it raises exactly then. After success every field is `in` the result. |
| RfpExtractor.StripFences | rfp_extractor.py:221-232 | The cleaned reply is stripped and no longer than the reply. |
| RfpExtractor.BareReplyUnchanged | rfp_extractor.py:221-232 | A stripped reply that neither opens nor closes with a fence passes through unchanged. |
| RfpExtractor.JsonFenceRoundTrip | rfp_extractor.py:221-232 | A stripped text fenced as "```json\n…\n```" comes back exactly. |
| RfpExtractor.PlainFenceRoundTrip | rfp_extractor.py:221-232 | A stripped text fenced as "```\n…\n```" comes back exactly. |
| RfpExtractor.BuildPrompt | rfp_extractor.py:176 | The prompt embeds a prefix of the text of length min(len, 12000). |
| RfpExtractor.ExtractRfpInformation | rfp_extractor.py:204-249 | Whatever it returns has every expected field `in` it. |
| RfpExtractor.ExtractRfpInformationOutcomes | rfp_extractor.py:204-249 | A failed chat call becomes the LLM error. An undecodable reply gives exactly the fields, all "Error extracting". A decoded object keeps its keys and values and gains "Not specified" for each missing field. Any other decoded value is returned unchanged when every field is "in" it, and otherwise raises the TypeError of the field loop. |
| RfpExtractor.FinalComponent | rfp_extractor.py:280 | `Path(p).name` contains no "/" and is never ".". |
| RfpExtractor.FinalComponentIsLastSegment | rfp_extractor.py:280 | A non-empty name is a whole component of the path, bounded by the path's ends or by "/", with only "/" and lone "." components after it. An empty name means the path holds only "/" and lone "." components. |
| RfpExtractor.DocumentType | rfp_extractor.py:281 | The document type is empty exactly when the name has no suffix. Otherwise it is a dot followed by dot-free text, with no "/" and no upper-case ASCII letter. |
| RfpExtractor.Suffix | rfp_extractor.py:129 | `Path.suffix` is empty, or a dot followed by dot-free text that ends the name and is shorter than it. |
| RfpExtractor.DetectFormat | rfp_extractor.py:129-136 | ".pdf" means PDF. ".html" or ".htm" means HTML. Each holds exactly when the lower-cased suffix is that value. Anything else is the unsupported-format error naming the suffix. |
| RfpExtractor.DispatchByExtension | rfp_extractor.py:129-136 | For a path ending in an extension, the document type is that extension lower-cased. The dispatch depends on the extension alone, ignoring ASCII case. |
| RfpExtractor.DotFileHasNoSuffix | rfp_extractor.py:129 | A name whose only dot is its first character (such as ".pdf") has no suffix, so it is unsupported. |
| RfpExtractor.HtmlLines | rfp_extractor.py:106-112 | Glued together, the output lines hold exactly the non-whitespace characters of the text, in order: the cleanup drops whitespace and nothing else. |
| RfpExtractor.CleanHtmlText | rfp_extractor.py:104-113 | The returned text has exactly the non-whitespace characters of `get_text()`'s output, in the same order. |
| RfpExtractor.HtmlLinesGood | rfp_extractor.py:106-113 | Every output line is non-empty and has no leading or trailing whitespace. It contains no double space and no line break. |
| RfpExtractor.CleanHtmlTextLines | rfp_extractor.py:113 | Splitting the returned text on "\n" gives exactly the cleaned lines. The text is empty exactly when no line survived. |
| RfpExtractor.CleanLinesIdentity | rfp_extractor.py:107-113 | Lines that are already non-empty, stripped and free of double spaces and line breaks pass through unchanged. |
| RfpExtractor.HtmlLinesRoundTrip | rfp_extractor.py:106-113 | Such clean lines, joined with "\n", come back as exactly the same lines. For such clean lines, lines break only at the line breaks, and single inner spaces are kept. |
| RfpExtractor.HtmlLinesDoubleSpaced | rfp_extractor.py:109-113 | Clean lines joined with double spaces on one source line come out as exactly those lines: a double space breaks a line. |
| RfpExtractor.HtmlLinesPadded | rfp_extractor.py:106-113 | A clean line with any whitespace before and after it, line breaks included, is cleaned to exactly that one line. |
| RfpExtractor.HtmlLinesLeadingSpace | rfp_extractor.py:106-113 | Whitespace in front of any text, line breaks included, changes none of the output lines. |
| RfpExtractor.HtmlLinesTrailingSpace | rfp_extractor.py:106-113 | Whitespace after any text, line breaks included, changes none of the output lines. |
| RfpExtractor.HtmlLinesAllSpace | rfp_extractor.py:106-113 | A text of whitespace only yields no lines. |
| RfpExtractor.HtmlLinesSpaceStep | rfp_extractor.py:106-113 | One whitespace character at the start, a line break or not, changes none of the output lines. |
| RfpExtractor.CleanLinesConcat | rfp_extractor.py:107-113 | The cleanup works line by line: cleaning two runs of lines gives the two results one after the other. |
| RfpExtractor.CleanHtmlTextIdempotent | rfp_extractor.py:104-113 | Cleaning the returned text again gives the same text. |
| RfpExtractor.ExtractTextFromFile | rfp_extractor.py:119-136 | Text is produced only for a supported suffix. |
| RfpExtractor.ExtractTextOutcomes | rfp_extractor.py:70-136 | An unsupported suffix gives its error. A reader failure is wrapped with the reader's name. PDF text comes back stripped. HTML text is the cleaned lines joined by "\n". |
| RfpExtractor.ProcessDocument | rfp_extractor.py:251-287 | A success carries the file name, the lower-cased suffix, and fields in which every expected field is present. |
| RfpExtractor.ProcessDocumentOutcomes | rfp_extractor.py:261-276 | The failures come in order: missing file, unsupported suffix, reader failure, LLM failure, and each is returned unchanged. A success needs all four steps to succeed and carries the fields the LLM step returned. |
| RfpExtractor.EntryFor | rfp_extractor.py:301-310 | Each entry is named by the path's final component. It is an error entry exactly when processing that path fails. A success entry is the processed result itself. An error entry carries the text of the exception processing raised. |
| RfpExtractor.ProcessMultipleDocuments | rfp_extractor.py:289-312 | There is one entry per path, in input order. Entry i is path i's result or its error entry, so a failure does not stop the batch. |
| RfpExtractor.MapEach | rfp_extractor.py:299-312 | The loop appends one value per input, in order. |
| Strings.Strip | rfp_extractor.py:221 | `str.strip()` returns a stripped slice of the input. |
| Strings.StripRemovesOnlySpace | rfp_extractor.py:221 | Everything `str.strip()` removes, before and after the kept slice, is whitespace. |
| Strings.SplitLines | rfp_extractor.py:107 | `str.splitlines()` gives lines without line-break characters. A non-empty text has at least one line. |
| Strings.SplitLinesJoin | rfp_extractor.py:107 | Gluing the lines back together gives the text with exactly its line-break characters removed. |
| Strings.SplitLinesOfJoin | rfp_extractor.py:107 | Lines without line-break characters, joined with "\n", split back into exactly those lines when the last one is not empty. |
| Strings.SplitLinesAtBoundary | rfp_extractor.py:107 | A piece without line breaks, followed by any boundary `splitlines()` knows, comes out as one line ahead of the lines of the rest. The boundary is "\r\n" or one line-break character, but not a "\r" that starts a "\r\n". |
| Strings.StripPadded | rfp_extractor.py:107 | Whitespace added at either end does not change what `strip()` returns. |
| Strings.StripEmptyIff | query.py:49 | A string strips to `""` exactly when it is all whitespace. |
| Strings.Split | query.py:48 | `split(sep)` gives at least one piece. |
| Strings.SplitPiecesAvoidSeparator | query.py:48 | No piece of `split(sep)` contains the separator. |
| PineconeDb.SliceStop | pinecone_db.py:19 | `xs[:k]` keeps at most all n items, exactly min(k, n) for a non-negative k, and drops min(-k, n) items from the end for a negative k. |
| Strings.JoinSplit | query.py:48 | Joining the pieces of `split(sep)` with `sep` gives back the string. |
| Strings.SplitJoinChar | query.py:48 | Splitting a join of one-character-separator-free parts gives back the parts. |

## Left out

- `download_and_extract` (extract_chunk_support.py:6-15): the HTTP download and PyMuPDF parsing are I/O. The text is a parameter.
- PDF reading (rfp_extractor.py:70-78) and BeautifulSoup parsing with script/style removal (rfp_extractor.py:93-104) are foreign libraries. `readText` returns their text or their exception message.
- `os.path.exists` is the `fileExists` parameter. The file itself is never read.
- `save_results_to_json` (rfp_extractor.py:314-325) is file output.
- `json.dumps` at parse_chunks.py:18 and `json.loads` at pinecone_db.py:10 are left out. The model passes the record list directly.
- `json.loads` of the reply is the abstract `parse`. Its result is a JSON value or a decode error.
- The Groq chat calls (query.py:10-12, 36-45; rfp_extractor.py:206-219) are the abstract `complete`. Query.QueryLlm passes it the context and the question list. The prompt templates' fixed wording is not modelled. The RFP prompt is modelled only by its document excerpt.
- In the RFP extractor, a chat completion whose content is `None` (so `.strip()` raises) is not distinguished from any other failed call.
- The RFP extractor's `GROQ_API_KEY` check (rfp_extractor.py:54-58) runs in the constructor, before any document, and is not modelled. The key lookup in `query_llm` is the `apiKeySet` parameter.
- SentenceTransformer encoding and cosine similarity (pinecone_db.py:6, 12, 17-18) use floats and a foreign model. They are the abstract `encode` and an integer-valued `sim`.
- The order among equal scores in `search` is left open. NumPy's argsort is not stable and the result is reversed. The model sorts one way, and no contract depends on that order.
- PineconeDb.Search: requires one embedding per chunk, which `embed_chunks` guarantees. In Python, more embeddings than chunks can pick an index past the chunk list and raise IndexError, and fewer embeddings give fewer texts. With no chunks at all the model returns no texts, where `cosine_similarity` raises ValueError on the empty matrix. Query.QueryLlm models that ValueError.
- `str.lower()` is modelled on ASCII letters only. Non-ASCII suffixes can never equal ".pdf", ".html" or ".htm" either way.
- `Path.name` and `Path.suffix` are modelled for POSIX paths. Windows drive and backslash handling is not.
- Dictionary key order is not modelled. JSON objects are maps.
- `print` output is not modelled. This includes the progress lines and the decode-error messages at rfp_extractor.py:244-245.
- The FastAPI apps and their Authorization check (main.py, api/main.py) are HTTP plumbing.
- The rfp_processor.py command line is left out. Its extension filter duplicates the dispatch modelled in RfpExtractor.DetectFormat.
- examples_rfp_extractor.py and test_rfp_extractor.py are demonstration scripts. They make no assertions.
- RfpExtractor.StripFences: its own contract states only the bounds. What it does with fenced and bare replies is stated by BareReplyUnchanged, JsonFenceRoundTrip and PlainFenceRoundTrip, not for every reply.
- RfpExtractor.ExtractTextFromFile: its own contract states only that text needs a supported suffix. The full outcome is stated by RfpExtractor.ExtractTextOutcomes.
- RfpExtractor.ExtractRfpInformation: its own contract states only that every field is present after success. The outcome of each case is stated by RfpExtractor.ExtractRfpInformationOutcomes.
- RfpExtractor.ProcessDocument: its own contract states only the shape of a success. The order of the failure cases and the fields of a success are stated by RfpExtractor.ProcessDocumentOutcomes.
- RfpExtractor.HtmlLines: its own contract states only that the non-whitespace characters are kept in order. Where lines break is stated by HtmlLinesRoundTrip, HtmlLinesDoubleSpaced, HtmlLinesPadded, HtmlLinesLeadingSpace and HtmlLinesTrailingSpace, not for every text. A run of three or more spaces inside a line is one case they do not cover.
- RfpExtractor.CleanHtmlText: the same holds for the joined text. Its lines are stated by CleanHtmlTextLines together with the HtmlLines lemmas above.

=== FILE: extract_chunk_support.dfy ===
/**
 Fixed-width chunking of extracted document text (`chunk_text`). The PDF
 download and extraction that produce the text are outside the model; the
 text arrives as a parameter.
 */
module ExtractChunkSupport {
  import opened Outcomes
  import opened Strings

  /** The default `chunk_size` of `chunk_text`. */
  const DefaultChunkSize: int := 500

  function Min(a: int, b: int): int
  {
    if a < b then a else b
  }

  /** The consecutive `size`-long slices of `text` from offset `start` on; the last may be shorter. */
  function ChunksFrom(text: string, size: nat, start: nat): (chunks: seq<string>)
    requires size > 0
    ensures forall i :: 0 <= i < |chunks| ==> 0 < |chunks[i]| <= size
    ensures forall i :: 0 <= i < |chunks| - 1 ==> |chunks[i]| == size
    decreases |text| - start
  {
    if start >= |text| then []
    else [text[start..Min(start + size, |text|)]] + ChunksFrom(text, size, start + size)
  }

  /**
   `chunk_text(text, chunk_size)`. A zero width makes `range` raise
   `ValueError`; a negative width gives an empty range and so no chunks;
   a positive width gives the slices of `ChunkText` below.
   */
  function ChunkText(text: string, chunkSize: int): (r: Result<seq<string>, string>)
    ensures r.Err? <==> chunkSize == 0
    ensures chunkSize < 0 ==> r == Ok([])
    ensures chunkSize > 0 ==> r.Ok? && Join("", r.value) == text
  {
    if chunkSize == 0 then Err("range() arg 3 must not be zero")
    else if chunkSize < 0 then Ok([])
    else
      ChunksFromJoin(text, chunkSize, 0);
      Ok(ChunksFrom(text, chunkSize, 0))
  }

  /**
   For a positive width the chunks are consecutive, non-overlapping slices:
   there are ⌈|text| / size⌉ of them, each non-empty and at most `size`
   long, all but the last exactly `size` long, and chunk `i` is
   `text[i * size..min((i + 1) * size, |text|)]`.
   */
  lemma ChunkTextShape(text: string, chunkSize: int)
    requires chunkSize > 0
    ensures var chunks := ChunkText(text, chunkSize).value;
      && (|chunks| - 1) * chunkSize < |text| <= |chunks| * chunkSize
      && (|text| == 0 <==> |chunks| == 0)
      && (forall i :: 0 <= i < |chunks| ==> 0 < |chunks[i]| <= chunkSize)
      && (forall i :: 0 <= i < |chunks| - 1 ==> |chunks[i]| == chunkSize)
      && (forall i :: 0 <= i < |chunks| ==> IsSliceAt(text, chunkSize, chunks, i))
  {
    var chunks := ChunkText(text, chunkSize).value;
    ChunksFromCount(text, chunkSize, 0);
    forall i | 0 <= i < |chunks|
      ensures IsSliceAt(text, chunkSize, chunks, i)
    {
      ChunksFromAt(text, chunkSize, 0, i);
    }
  }

  /** Chunk `i` is the slice `text[i * size..min((i + 1) * size, |text|)]`. */
  predicate IsSliceAt(text: string, size: nat, chunks: seq<string>, i: nat)
    requires i < |chunks|
  {
    var lo := i * size;
    var hi := Min(lo + size, |text|);
    lo <= hi && chunks[i] == text[lo..hi]
  }

  /** The chunks from offset `start` concatenate to `text[start..]`. */
  lemma {:induction false} ChunksFromJoin(text: string, size: nat, start: nat)
    requires size > 0 && start <= |text|
    ensures Join("", ChunksFrom(text, size, start)) == text[start..]
    decreases |text| - start
  {
    if start < |text| {
      var c := text[start..Min(start + size, |text|)];
      var rest := ChunksFrom(text, size, start + size);
      JoinEmptyCons(c, rest);
      if start + size <= |text| {
        ChunksFromJoin(text, size, start + size);
        assert text[start..] == c + text[start + size..];
      } else {
        assert rest == [];
      }
    }
  }

  /** The number of chunks from offset `start` is ⌈(|text| - start) / size⌉. */
  lemma {:induction false} ChunksFromCount(text: string, size: nat, start: nat)
    requires size > 0 && start <= |text|
    ensures var n := |ChunksFrom(text, size, start)|;
      (n - 1) * size < |text| - start <= n * size
    decreases |text| - start
  {
    var m := |text| - start;
    if m > 0 {
      var rest := ChunksFrom(text, size, start + size);
      var n := |rest|;
      if start + size <= |text| {
        ChunksFromCount(text, size, start + size);
        assert (n + 1) * size == n * size + size;
      } else {
        assert rest == [];
      }
    }
  }

  /** Chunk `i` from offset `start` is the slice at `start + i * size`. */
  lemma {:induction false} ChunksFromAt(text: string, size: nat, start: nat, i: nat)
    requires size > 0 && i < |ChunksFrom(text, size, start)|
    ensures var lo := start + i * size;
      var hi := Min(lo + size, |text|);
      lo <= hi && ChunksFrom(text, size, start)[i] == text[lo..hi]
    decreases i
  {
    if i > 0 {
      ChunksFromAt(text, size, start + size, i - 1);
      assert start + size + (i - 1) * size == start + i * size;
    }
  }

  /** Consecutive chunks are adjacent slices: one ends where the next begins. */
  lemma ChunksAdjacent(text: string, chunkSize: int, i: nat)
    requires chunkSize > 0
    requires i + 1 < |ChunkText(text, chunkSize).value|
    ensures var chunks := ChunkText(text, chunkSize).value;
      var lo := i * chunkSize;
      lo <= |text|
      && chunks[i] + chunks[i + 1] == text[lo..Min(lo + 2 * chunkSize, |text|)]
  {
    var chunks := ChunkText(text, chunkSize).value;
    ChunkTextShape(text, chunkSize);
    assert IsSliceAt(text, chunkSize, chunks, i);
    assert IsSliceAt(text, chunkSize, chunks, i + 1);
    assert (i + 1) * chunkSize == i * chunkSize + chunkSize;
  }
}

=== FILE: outcomes.dfy ===
/**
 The success-or-exception outcome shared by every module: where the Python
 code raises, the model returns `Err` with the exception it would raise.
 */
module Outcomes {

  datatype Result<+T, +E> = Ok(value: T) | Err(error: E)
}

=== FILE: parse_chunks.dfy ===
/**
 `parse_chunk`: the extracted document text cut into default-width chunks,
 each wrapped in a record. The `json.dumps` at the end is not modelled; the
 list of records is the result.
 */
module ParseChunks {
  import opened Strings
  import opened ExtractChunkSupport

  /** The `file_name` every record carries. */
  const SourceName := "Insurance"

  /** One element of the list: `{'file_name': ..., 'chunk_id': ..., 'text': ...}`. */
  datatype ChunkRecord = ChunkRecord(fileName: string, chunkId: nat, text: string)

  /** The `text` field of each record, in order: what `embed_chunks` hands to the encoder. */
  function Texts(records: seq<ChunkRecord>): (texts: seq<string>)
    ensures |texts| == |records|
    ensures forall i :: 0 <= i < |records| ==> texts[i] == records[i].text
  {
    seq(|records|, i requires 0 <= i < |records| => records[i].text)
  }

  /**
   `parse_chunk` on an already extracted document: record `i` is chunk `i`
   of `chunk_text(document)` under id `i` and the fixed source name.
   */
  function ParseChunk(document: string): (records: seq<ChunkRecord>)
    ensures var chunks := ChunkText(document, DefaultChunkSize).value;
      && |records| == |chunks|
      && forall i :: 0 <= i < |records| ==>
           records[i] == ChunkRecord(SourceName, i, chunks[i])
  {
    var chunks := ChunkText(document, DefaultChunkSize).value;
    seq(|chunks|, i requires 0 <= i < |chunks| => ChunkRecord(SourceName, i, chunks[i]))
  }

  /** Concatenating the record texts in order gives back the document. */
  lemma ParseChunkReconstructs(document: string)
    ensures Join("", Texts(ParseChunk(document))) == document
  {
    assert Texts(ParseChunk(document)) == ChunkText(document, DefaultChunkSize).value;
  }

  /**
   The ids are 0, 1, 2, ... in list order, and every text is a non-empty
   slice of at most 500 characters.
   */
  lemma ParseChunkIds(document: string)
    ensures var records := ParseChunk(document);
      && (forall i :: 0 <= i < |records| ==> records[i].chunkId == i)
      && (forall i, j :: 0 <= i < j < |records| ==> records[i].chunkId < records[j].chunkId)
      && (forall i :: 0 <= i < |records| ==> 0 < |records[i].text| <= DefaultChunkSize)
  {
    ChunkTextShape(document, DefaultChunkSize);
  }
}

=== FILE: pinecone_db.dfy ===
/**
 `embed_chunks` and `search`: pairing chunk texts with embeddings, and
 ranking chunks against a query to return the texts of the best `top_k`.
 The sentence-embedding model and cosine similarity are abstract: `encode`
 maps a text to an embedding and `sim` scores a query embedding against a
 chunk embedding on a totally ordered scale.
 */
module PineconeDb {
  import opened ParseChunks

  /** The default `top_k` of `search`. */
  const DefaultTopK: int := 5

  /**
   `embed_chunks`: the chunk list is returned as it came, together with one
   embedding per chunk, computed from that chunk's text and kept at the
   same position.
   */
  function EmbedChunks<V>(records: seq<ChunkRecord>, encode: string -> V): (r: (seq<ChunkRecord>, seq<V>))
    ensures r.0 == records
    ensures |r.1| == |records|
    ensures forall i :: 0 <= i < |records| ==> r.1[i] == encode(records[i].text)
  {
    var texts := Texts(records);
    (records, seq(|texts|, i requires 0 <= i < |texts| => encode(texts[i])))
  }

  /** The similarity of the query's embedding to each chunk embedding, one score per row. */
  function Scores<V>(query: string, embeddings: seq<V>, encode: string -> V, sim: (V, V) -> int): (scores: seq<int>)
    ensures |scores| == |embeddings|
    ensures forall i :: 0 <= i < |embeddings| ==> scores[i] == sim(encode(query), embeddings[i])
  {
    var q := encode(query);
    seq(|embeddings|, i requires 0 <= i < |embeddings| => sim(q, embeddings[i]))
  }

  /** The length Python gives a list of length `n` sliced up to `k`: a negative `k` counts from the end. */
  function SliceStop(n: nat, k: int): (m: nat)
    ensures m <= n
    ensures k >= 0 ==> m == if k < n then k else n
    ensures k < 0 ==> n - m == if -k < n then -k else n
  {
    if k >= 0 then (if k < n then k else n)
    else if n + k > 0 then n + k else 0
  }

  /** Every entry is an index into `scores`, and scores do not increase along the list. */
  predicate RankedBy(order: seq<nat>, scores: seq<int>)
  {
    && (forall i :: 0 <= i < |order| ==> order[i] < |scores|)
    && (forall i, j :: 0 <= i < j < |order| ==> scores[order[i]] >= scores[order[j]])
  }

  predicate Distinct(order: seq<nat>)
  {
    forall i, j :: 0 <= i < j < |order| ==> order[i] != order[j]
  }

  /**
   What the top-`top_k` cut of the descending order selects: as many
   distinct indices as the slice keeps, in non-increasing score order, and no index left out
   scores above one taken.
   */
  predicate IsTopSelection(sel: seq<nat>, scores: seq<int>, topK: int)
  {
    && |sel| == SliceStop(|scores|, topK)
    && RankedBy(sel, scores)
    && Distinct(sel)
    && (forall j, i :: 0 <= j < |scores| && j !in sel && 0 <= i < |sel| ==> scores[j] <= scores[sel[i]])
  }

  /** Inserts index `k` into a ranked list before the first entry that scores no higher. */
  function Insert(scores: seq<int>, k: nat, order: seq<nat>): (r: seq<nat>)
    requires k < |scores| && RankedBy(order, scores)
    ensures |r| == |order| + 1
    ensures forall x :: x in r <==> x == k || x in order
    decreases |order|
  {
    if |order| == 0 || scores[k] >= scores[order[0]] then [k] + order
    else [order[0]] + Insert(scores, k, order[1..])
  }

  /** Putting an entry that scores at least as high as every entry of a ranked list in front keeps it ranked. */
  lemma ConsRanked(scores: seq<int>, x: nat, rest: seq<nat>)
    requires x < |scores| && RankedBy(rest, scores)
    requires forall j :: 0 <= j < |rest| ==> scores[x] >= scores[rest[j]]
    ensures RankedBy([x] + rest, scores)
  {
    var r := [x] + rest;
    forall i, j | 0 <= i < j < |r|
      ensures scores[r[i]] >= scores[r[j]]
    {
      assert r[j] == rest[j - 1];
      if i > 0 {
        assert r[i] == rest[i - 1];
      }
    }
  }

  /** Putting an entry that does not occur in a list of distinct entries in front keeps them distinct. */
  lemma ConsDistinct(x: nat, rest: seq<nat>)
    requires Distinct(rest) && x !in rest
    ensures Distinct([x] + rest)
  {
    var r := [x] + rest;
    forall i, j | 0 <= i < j < |r|
      ensures r[i] != r[j]
    {
      assert r[j] == rest[j - 1];
      if i > 0 {
        assert r[i] == rest[i - 1];
      }
    }
  }

  lemma {:induction false} InsertRanked(scores: seq<int>, k: nat, order: seq<nat>)
    requires k < |scores| && RankedBy(order, scores)
    ensures RankedBy(Insert(scores, k, order), scores)
    decreases |order|
  {
    if |order| == 0 || scores[k] >= scores[order[0]] {
      forall j | 0 <= j < |order|
        ensures scores[k] >= scores[order[j]]
      {
        if j > 0 {
          assert scores[order[0]] >= scores[order[j]];
        }
      }
      ConsRanked(scores, k, order);
    } else {
      var tail := order[1..];
      assert forall p :: 0 <= p < |tail| ==> tail[p] == order[p + 1];
      assert RankedBy(tail, scores);
      InsertRanked(scores, k, tail);
      var rest := Insert(scores, k, tail);
      forall j | 0 <= j < |rest|
        ensures scores[order[0]] >= scores[rest[j]]
      {
        var x := rest[j];
        assert x in rest;
        if x != k {
          assert x in tail;
          var p :| 0 <= p < |tail| && tail[p] == x;
        }
      }
      ConsRanked(scores, order[0], rest);
    }
  }

  lemma {:induction false} InsertDistinct(scores: seq<int>, k: nat, order: seq<nat>)
    requires k < |scores| && RankedBy(order, scores)
    requires Distinct(order) && k !in order
    ensures Distinct(Insert(scores, k, order))
    decreases |order|
  {
    if |order| == 0 || scores[k] >= scores[order[0]] {
      ConsDistinct(k, order);
    } else {
      var tail := order[1..];
      assert forall p :: 0 <= p < |tail| ==> tail[p] == order[p + 1];
      assert RankedBy(tail, scores);
      assert Distinct(tail);
      assert k !in tail;
      InsertDistinct(scores, k, tail);
      var rest := Insert(scores, k, tail);
      assert order[0] !in tail by {
        forall p | 0 <= p < |tail|
          ensures tail[p] != order[0]
        {
          assert tail[p] == order[p + 1];
        }
      }
      assert order[0] != k by {
        assert order[0] in order;
      }
      ConsDistinct(order[0], rest);
    }
  }

  /** The indices `0..n-1` in non-increasing score order (insertion sort). */
  function SortPrefix(scores: seq<int>, n: nat): (order: seq<nat>)
    requires n <= |scores|
    ensures |order| == n
    ensures forall x: int :: x in order <==> 0 <= x < n
    ensures RankedBy(order, scores)
    ensures Distinct(order)
    decreases n
  {
    if n == 0 then []
    else
      var prev := SortPrefix(scores, n - 1);
      InsertRanked(scores, n - 1, prev);
      InsertDistinct(scores, n - 1, prev);
      Insert(scores, n - 1, prev)
  }

  /**
   The indices sorted by descending score (an ascending argsort, reversed):
   every index exactly once, best score first. Among equal scores the order is whatever the sort produced; no
   contract here depends on it.
   */
  function ArgsortDescending(scores: seq<int>): (order: seq<nat>)
    ensures |order| == |scores|
    ensures forall j :: 0 <= j < |scores| ==> j in order
    ensures RankedBy(order, scores)
    ensures Distinct(order)
  {
    SortPrefix(scores, |scores|)
  }

  /** The first `top_k` indices of the descending order: the best `top_k` chunks. */
  function TopIndices(scores: seq<int>, topK: int): (sel: seq<nat>)
    ensures IsTopSelection(sel, scores, topK)
  {
    var order := ArgsortDescending(scores);
    RankedPrefixIsTop(order, scores, SliceStop(|order|, topK));
    order[..SliceStop(|order|, topK)]
  }

  /** Any prefix of a ranked order of all indices is ranked, distinct, and beats every index it leaves out. */
  lemma RankedPrefixIsTop(order: seq<nat>, scores: seq<int>, m: nat)
    requires m <= |order|
    requires forall j :: 0 <= j < |scores| ==> j in order
    requires RankedBy(order, scores) && Distinct(order)
    ensures RankedBy(order[..m], scores) && Distinct(order[..m])
    ensures forall j, i :: 0 <= j < |scores| && j !in order[..m] && 0 <= i < m ==> scores[j] <= scores[order[..m][i]]
  {
    var sel := order[..m];
    forall j, i | 0 <= j < |scores| && j !in sel && 0 <= i < m
      ensures scores[j] <= scores[sel[i]]
    {
      assert j in order;
      var p :| 0 <= p < |order| && order[p] == j;
      assert p >= m;
    }
  }

  /**
   `search`: the texts of the chunks at the best `top_k` indices, best
   first. The embeddings must be the ones `embed_chunks` built for these
   chunks, one per chunk.
   */
  function Search<V>(query: string, chunks: seq<ChunkRecord>, embeddings: seq<V>,
                     encode: string -> V, sim: (V, V) -> int, topK: int): (texts: seq<string>)
    requires |embeddings| == |chunks|
    ensures |texts| == SliceStop(|chunks|, topK)
  {
    var sel := TopIndices(Scores(query, embeddings, encode, sim), topK);
    seq(|sel|, i requires 0 <= i < |sel| => chunks[sel[i]].text)
  }

  /**
   The result of `search` is the text of a top-`top_k` selection of chunks,
   position by position: distinct chunks, best score first, and no chunk
   left out scores higher than one returned.
   */
  lemma SearchReturnsTopK<V>(query: string, chunks: seq<ChunkRecord>, embeddings: seq<V>,
                             encode: string -> V, sim: (V, V) -> int, topK: int)
    requires |embeddings| == |chunks|
    ensures var texts := Search(query, chunks, embeddings, encode, sim, topK);
      exists sel :: IsTopSelection(sel, Scores(query, embeddings, encode, sim), topK)
        && |sel| == |texts|
        && forall i :: 0 <= i < |sel| ==> texts[i] == chunks[sel[i]].text
  {
    var sel := TopIndices(Scores(query, embeddings, encode, sim), topK);
    assert IsTopSelection(sel, Scores(query, embeddings, encode, sim), topK);
  }
}

=== FILE: query.dfy ===
/**
 `query_llm`: retrieve the best chunks for every question, concatenate them
 into one context, ask the language model once for all questions, and split
 its `|`-separated reply into the answer list. The chat completion is an
 abstract `complete(context, questions)`: it stands for filling the prompt
 template with the context and the question list and returning the reply.
 */
module Query {
  import opened Outcomes
  import opened Strings
  import opened ParseChunks
  import opened PineconeDb

  /** What `'\n\n'.join` puts between the texts retrieved for one question. */
  const ChunkSeparator := "\n\n"

  /** The separator the prompt asks the model to put between answers. */
  const AnswerSeparator: char := '|'

  /** The value `query_llm` returns: `{"answers": [...]}`, with that single key. */
  datatype AnswerSet = AnswerSet(answers: seq<string>)

  /**
   What the chat completion call gives back: the first choice's message
   content, a message whose content is `None`, or an exception raised by the
   client (its text).
   */
  datatype Completion = Reply(content: string) | NoContent | CallFailed(cause: string)

  /** The exceptions `query_llm` lets escape, in the order it can meet them. */
  datatype QueryFailure =
    | MissingApiKey           // `os.environ['GROQ_API_KEY']` raises KeyError
    | EmptyIndex              // `cosine_similarity` rejects an embedding matrix with no rows
    | CompletionFailed(cause: string)
    | MissingContent          // `None.split('|')` raises AttributeError

  /** The texts `search` retrieves for one question with the default `top_k`, joined by blank lines. */
  function RetrievedBlock<V>(query: string, chunks: seq<ChunkRecord>, embeddings: seq<V>,
                             encode: string -> V, sim: (V, V) -> int): string
    requires |embeddings| == |chunks|
  {
    Join(ChunkSeparator, Search(query, chunks, embeddings, encode, sim, DefaultTopK))
  }

  /** The blocks of all questions in order, with nothing between two questions' blocks. */
  function Context<V>(queries: seq<string>, chunks: seq<ChunkRecord>, embeddings: seq<V>,
                      encode: string -> V, sim: (V, V) -> int): string
    requires |embeddings| == |chunks|
    decreases |queries|
  {
    if |queries| == 0 then ""
    else RetrievedBlock(queries[0], chunks, embeddings, encode, sim)
         + Context(queries[1..], chunks, embeddings, encode, sim)
  }

  /** The context of two question lists one after the other is the two contexts concatenated. */
  lemma {:induction false} ContextConcat<V>(q1: seq<string>, q2: seq<string>, chunks: seq<ChunkRecord>,
                                            embeddings: seq<V>, encode: string -> V, sim: (V, V) -> int)
    requires |embeddings| == |chunks|
    ensures Context(q1 + q2, chunks, embeddings, encode, sim)
      == Context(q1, chunks, embeddings, encode, sim) + Context(q2, chunks, embeddings, encode, sim)
    decreases |q1|
  {
    if |q1| == 0 {
      assert q1 + q2 == q2;
    } else {
      assert (q1 + q2)[0] == q1[0];
      assert (q1 + q2)[1..] == q1[1..] + q2;
      ContextConcat(q1[1..], q2, chunks, embeddings, encode, sim);
    }
  }

  /**
   The loop of `query_llm` that builds `context`: it starts empty and each
   question appends its block, so the result is the in-order concatenation
   of the blocks, duplicates and all.
   */
  method BuildContext<V>(queries: seq<string>, chunks: seq<ChunkRecord>, embeddings: seq<V>,
                         encode: string -> V, sim: (V, V) -> int) returns (context: string)
    requires |embeddings| == |chunks|
    ensures context == Context(queries, chunks, embeddings, encode, sim)
    ensures |queries| == 0 ==> context == ""
  {
    context := "";
    var n := 0;
    while n < |queries|
      invariant 0 <= n <= |queries|
      invariant context == Context(queries[..n], chunks, embeddings, encode, sim)
    {
      context := context + RetrievedBlock(queries[n], chunks, embeddings, encode, sim);
      ContextExtend(queries, n, chunks, embeddings, encode, sim);
      n := n + 1;
    }
    assert queries[..n] == queries;
  }

  /** One more question appends its block to the context. */
  lemma ContextAppend<V>(pre: seq<string>, query: string, chunks: seq<ChunkRecord>, embeddings: seq<V>,
                         encode: string -> V, sim: (V, V) -> int)
    requires |embeddings| == |chunks|
    ensures Context(pre + [query], chunks, embeddings, encode, sim)
      == Context(pre, chunks, embeddings, encode, sim) + RetrievedBlock(query, chunks, embeddings, encode, sim)
  {
    assert Context([query], chunks, embeddings, encode, sim) == RetrievedBlock(query, chunks, embeddings, encode, sim) by {
      ContextFirst([query], chunks, embeddings, encode, sim);
      assert [query][1..] == [];
    }
    ContextConcat(pre, [query], chunks, embeddings, encode, sim);
  }

  /** The context of the first `n + 1` questions extends that of the first `n` by one block. */
  lemma ContextExtend<V>(queries: seq<string>, n: nat, chunks: seq<ChunkRecord>, embeddings: seq<V>,
                         encode: string -> V, sim: (V, V) -> int)
    requires |embeddings| == |chunks| && n < |queries|
    ensures Context(queries[..n + 1], chunks, embeddings, encode, sim)
      == Context(queries[..n], chunks, embeddings, encode, sim)
         + RetrievedBlock(queries[n], chunks, embeddings, encode, sim)
  {
    ContextAppend(queries[..n], queries[n], chunks, embeddings, encode, sim);
    SplitAt(queries, n);
  }

  /** The context starts with the first question's block, followed by the rest's context. */
  lemma ContextFirst<V>(queries: seq<string>, chunks: seq<ChunkRecord>, embeddings: seq<V>,
                        encode: string -> V, sim: (V, V) -> int)
    requires |embeddings| == |chunks| && |queries| > 0
    ensures Context(queries, chunks, embeddings, encode, sim)
      == RetrievedBlock(queries[0], chunks, embeddings, encode, sim)
         + Context(queries[1..], chunks, embeddings, encode, sim)
  {
  }

  /** The context around question `q`: the earlier questions' context, its block, the later questions' context. */
  lemma ContextAround<V>(queries: seq<string>, q: nat, chunks: seq<ChunkRecord>, embeddings: seq<V>,
                         encode: string -> V, sim: (V, V) -> int)
    requires |embeddings| == |chunks| && q < |queries|
    ensures Context(queries, chunks, embeddings, encode, sim)
      == Context(queries[..q], chunks, embeddings, encode, sim)
         + (RetrievedBlock(queries[q], chunks, embeddings, encode, sim)
            + Context(queries[q + 1..], chunks, embeddings, encode, sim))
  {
    var tail := queries[q..];
    SplitAt(queries, q);
    ContextConcat(queries[..q], tail, chunks, embeddings, encode, sim);
    ContextFirst(tail, chunks, embeddings, encode, sim);
  }

  /** A sequence is its prefix before `q` followed by the rest, which starts with element `q`. */
  lemma SplitAt<T>(s: seq<T>, q: nat)
    requires q < |s|
    ensures s == s[..q] + s[q..]
    ensures s[q..][0] == s[q] && s[q..][1..] == s[q + 1..]
    ensures s[..q + 1] == s[..q] + [s[q]]
  {
  }

  /** Every text retrieved for any of the questions appears in the context. */
  lemma RetrievedTextInContext<V>(queries: seq<string>, chunks: seq<ChunkRecord>,
                                  embeddings: seq<V>, encode: string -> V,
                                  sim: (V, V) -> int, q: nat, t: nat)
    requires |embeddings| == |chunks|
    requires q < |queries|
    requires t < |Search(queries[q], chunks, embeddings, encode, sim, DefaultTopK)|
    ensures Contains(Context(queries, chunks, embeddings, encode, sim),
                     Search(queries[q], chunks, embeddings, encode, sim, DefaultTopK)[t])
  {
    var texts := Search(queries[q], chunks, embeddings, encode, sim, DefaultTopK);
    var block := RetrievedBlock(queries[q], chunks, embeddings, encode, sim);
    var later := Context(queries[q + 1..], chunks, embeddings, encode, sim);
    ContextAround(queries, q, chunks, embeddings, encode, sim);
    JoinContainsPart(ChunkSeparator, texts, t);
    ContainsBeforeSuffix(block, later, texts[t]);
    ContainsAfterPrefix(Context(queries[..q], chunks, embeddings, encode, sim), block + later, texts[t]);
  }

  // ---------------------------------------------------------------- answers

  /**
   The post-processing of the split reply: each non-empty piece, stripped,
   in order. Empty pieces are dropped before stripping, so a piece of
   whitespace alone gives "".
   */
  function AnswersOf(pieces: seq<string>): (answers: seq<string>)
    ensures |answers| <= |pieces|
    ensures forall i :: 0 <= i < |answers| ==> IsStripped(answers[i])
  {
    if |pieces| == 0 then []
    else
      var last := pieces[|pieces| - 1];
      AnswersOf(pieces[..|pieces| - 1]) + (if last == "" then [] else [Strip(last)])
  }

  /** The positions of the pieces the comprehension keeps (the non-empty ones), ascending. */
  function Kept(pieces: seq<string>): (kept: seq<nat>)
    ensures forall i :: 0 <= i < |kept| ==> kept[i] < |pieces| && pieces[kept[i]] != ""
    ensures forall i, i' :: 0 <= i < i' < |kept| ==> kept[i] < kept[i']
  {
    if |pieces| == 0 then []
    else
      var n := |pieces| - 1;
      Kept(pieces[..n]) + (if pieces[n] == "" then [] else [n])
  }

  /** Every non-empty piece is kept. */
  lemma {:induction false} KeptComplete(pieces: seq<string>, x: nat)
    requires x < |pieces| && pieces[x] != ""
    ensures x in Kept(pieces)
  {
    var n := |pieces| - 1;
    if x < n {
      KeptComplete(pieces[..n], x);
      assert Kept(pieces) == Kept(pieces[..n]) + (if pieces[n] == "" then [] else [n]);
    } else {
      assert Kept(pieces)[|Kept(pieces)| - 1] == n;
    }
  }

  predicate AnswersMatchKept(pieces: seq<string>)
  {
    && |AnswersOf(pieces)| == |Kept(pieces)|
    && forall i :: 0 <= i < |AnswersOf(pieces)| ==> AnswersOf(pieces)[i] == Strip(pieces[Kept(pieces)[i]])
  }

  /** Answer `i` is the stripped piece at the `i`-th kept position. */
  lemma {:induction false} AnswersKept(pieces: seq<string>)
    ensures AnswersMatchKept(pieces)
  {
    if |pieces| > 0 {
      var n := |pieces| - 1;
      var init := pieces[..n];
      AnswersKept(init);
      var a, k := AnswersOf(init), Kept(init);
      forall i | 0 <= i < |a|
        ensures AnswersOf(pieces)[i] == Strip(pieces[Kept(pieces)[i]])
      {
        assert init[k[i]] == pieces[k[i]];
      }
    }
  }

  /** When no piece is empty, every position is kept, in order. */
  lemma {:induction false} KeptAll(pieces: seq<string>)
    requires forall i :: 0 <= i < |pieces| ==> pieces[i] != ""
    ensures |Kept(pieces)| == |pieces|
    ensures forall i :: 0 <= i < |pieces| ==> Kept(pieces)[i] == i
  {
    if |pieces| > 0 {
      var n := |pieces| - 1;
      var init := pieces[..n];
      assert forall i :: 0 <= i < |init| ==> init[i] == pieces[i];
      KeptAll(init);
      assert pieces[n] != "";
      assert Kept(pieces) == Kept(init) + [n];
    }
  }

  lemma AnswersAllKept(pieces: seq<string>)
    requires forall i :: 0 <= i < |pieces| ==> pieces[i] != ""
    ensures |AnswersOf(pieces)| == |pieces|
    ensures forall i :: 0 <= i < |pieces| ==> AnswersOf(pieces)[i] == Strip(pieces[i])
  {
    AnswersKept(pieces);
    KeptAll(pieces);
  }

  lemma {:induction false} AnswersAvoidChar(pieces: seq<string>, c: char)
    requires forall i :: 0 <= i < |pieces| ==> c !in pieces[i]
    ensures forall i :: 0 <= i < |AnswersOf(pieces)| ==> c !in AnswersOf(pieces)[i]
  {
    if |pieces| > 0 {
      var n := |pieces| - 1;
      var init := pieces[..n];
      assert forall i :: 0 <= i < |init| ==> c !in init[i] by {
        forall i | 0 <= i < |init| ensures c !in init[i] {
          assert init[i] == pieces[i];
        }
      }
      AnswersAvoidChar(init, c);
      StripKeepsAbsence(pieces[n], c);
      var a := AnswersOf(init);
      var tail := if pieces[n] == "" then [] else [Strip(pieces[n])];
      assert AnswersOf(pieces) == a + tail;
      forall i | 0 <= i < |a + tail|
        ensures c !in (a + tail)[i]
      {
        if i < |a| {
          assert (a + tail)[i] == a[i];
        }
      }
    }
  }

  /**
   The post-processing of the reply: split at every `|`, then the non-empty
   pieces stripped. There are at most one more answers than `|` characters,
   and every answer is stripped and free of `|`.
   */
  function SplitAnswers(reply: string): (answers: seq<string>)
    ensures |answers| <= CountChar(reply, AnswerSeparator) + 1
    ensures forall i :: 0 <= i < |answers| ==> IsStripped(answers[i]) && AnswerSeparator !in answers[i]
  {
    var pieces := Split(reply, [AnswerSeparator]);
    SplitCharCount(reply, AnswerSeparator);
    SplitPiecesAvoidSeparator(reply, [AnswerSeparator]);
    forall i | 0 <= i < |pieces| ensures AnswerSeparator !in pieces[i] {
      ContainsChar(pieces[i], AnswerSeparator);
    }
    AnswersAvoidChar(pieces, AnswerSeparator);
    AnswersOf(pieces)
  }

  /**
   The answers are the `|`-separated pieces of the reply in their original
   order, stripped; exactly the non-empty pieces are kept, so a
   whitespace-only piece gives an empty answer.
   */
  lemma AnswersArePieces(reply: string)
    ensures var pieces := Split(reply, [AnswerSeparator]);
      var kept := Kept(pieces);
      var answers := SplitAnswers(reply);
      && |answers| == |kept|
      && (forall i :: 0 <= i < |answers| ==> answers[i] == Strip(pieces[kept[i]]))
      && (forall i :: 0 <= i < |kept| ==> kept[i] < |pieces| && pieces[kept[i]] != "")
      && (forall i, i' :: 0 <= i < i' < |kept| ==> kept[i] < kept[i'])
      && (forall x: nat :: x < |pieces| && pieces[x] != "" ==> x in kept)
      && (forall i :: 0 <= i < |kept| ==> (answers[i] == "" <==> AllSpace(pieces[kept[i]])))
  {
    var pieces := Split(reply, [AnswerSeparator]);
    AnswersKept(pieces);
    var kept := Kept(pieces);
    forall x: nat | x < |pieces| && pieces[x] != "" ensures x in kept {
      KeptComplete(pieces, x);
    }
    forall i | 0 <= i < |kept| ensures Strip(pieces[kept[i]]) == "" <==> AllSpace(pieces[kept[i]]) {
      StripEmptyIff(pieces[kept[i]]);
    }
  }

  /** A non-empty reply without `|` is one answer: the stripped reply. */
  lemma SingleAnswer(reply: string)
    requires reply != "" && AnswerSeparator !in reply
    ensures SplitAnswers(reply) == [Strip(reply)]
  {
    ContainsChar(reply, AnswerSeparator);
    SplitWithoutSeparator(reply, [AnswerSeparator]);
  }

  /**
   A reply of non-empty, `|`-free parts joined by `|` yields one answer per
   part, in order: the part stripped. For parts that are already stripped
   this is the round trip of answers through the reply format.
   */
  lemma ReplyRoundTrip(parts: seq<string>)
    requires |parts| >= 1
    requires forall i :: 0 <= i < |parts| ==> parts[i] != "" && AnswerSeparator !in parts[i]
    ensures |SplitAnswers(Join([AnswerSeparator], parts))| == |parts|
    ensures forall i :: 0 <= i < |parts| ==> SplitAnswers(Join([AnswerSeparator], parts))[i] == Strip(parts[i])
    ensures (forall i :: 0 <= i < |parts| ==> IsStripped(parts[i])) ==> SplitAnswers(Join([AnswerSeparator], parts)) == parts
  {
    JoinedReplyPieces(parts);
    AnswersAllKept(parts);
    if forall i :: 0 <= i < |parts| ==> IsStripped(parts[i]) {
      StrippedAnswersUnchanged(parts);
    }
  }

  /** A reply made of `|`-free parts splits back into those parts. */
  lemma JoinedReplyPieces(parts: seq<string>)
    requires |parts| >= 1
    requires forall i :: 0 <= i < |parts| ==> AnswerSeparator !in parts[i]
    ensures SplitAnswers(Join([AnswerSeparator], parts)) == AnswersOf(parts)
  {
    SplitJoinChar(parts, AnswerSeparator);
  }

  /** Non-empty parts that are already stripped are their own answers. */
  lemma StrippedAnswersUnchanged(parts: seq<string>)
    requires forall i :: 0 <= i < |parts| ==> parts[i] != "" && IsStripped(parts[i])
    ensures AnswersOf(parts) == parts
  {
    AnswersAllKept(parts);
    forall i | 0 <= i < |parts| ensures Strip(parts[i]) == parts[i] {
      StripStripped(parts[i]);
    }
  }

  /**
   `query_llm` with the chat completion as `complete` and whether
   `GROQ_API_KEY` is set as `apiKeySet`: the client needs the key; the chunks
   are embedded and the context is built from every question, where the
   first search over no chunks at all raises; the model is asked once with
   the context and the question list; and its reply is split into the
   answer list. Every exception reaches the caller.
   */
  method QueryLlm<V>(records: seq<ChunkRecord>, queries: seq<string>, apiKeySet: bool,
                     encode: string -> V, sim: (V, V) -> int,
                     complete: (string, seq<string>) -> Completion)
    returns (result: Result<AnswerSet, QueryFailure>)
    ensures !apiKeySet ==> result == Err(MissingApiKey)
    ensures apiKeySet && |records| == 0 && |queries| > 0 ==> result == Err(EmptyIndex)
    ensures apiKeySet && (|records| > 0 || |queries| == 0) ==>
      var embeddings := EmbedChunks(records, encode).1;
      var reply := complete(Context(queries, records, embeddings, encode, sim), queries);
      && (reply.CallFailed? ==> result == Err(CompletionFailed(reply.cause)))
      && (reply.NoContent? ==> result == Err(MissingContent))
      && (reply.Reply? ==> result == Ok(AnswerSet(SplitAnswers(reply.content))))
    ensures apiKeySet && |queries| == 0 && complete("", queries).Reply? ==>
      result == Ok(AnswerSet(SplitAnswers(complete("", queries).content)))
  {
    if !apiKeySet {
      return Err(MissingApiKey);
    }
    var embedded := EmbedChunks(records, encode);
    var chunks, embeddings := embedded.0, embedded.1;
    if |chunks| == 0 && |queries| > 0 {
      return Err(EmptyIndex);
    }
    var context := BuildContext(queries, chunks, embeddings, encode, sim);
    var reply := complete(context, queries);
    match reply
    case CallFailed(cause) =>
      result := Err(CompletionFailed(cause));
    case NoContent =>
      result := Err(MissingContent);
    case Reply(content) =>
      result := Ok(AnswerSet(SplitAnswers(content)));
  }
}

=== FILE: rfp_extractor.dfy ===
/**
 `RFPExtractor`: pick the text extractor by file extension, clean the text,
 ask the language model for a JSON object of twenty fields, repair the
 reply, and wrap the result with document metadata, one document or many.

 Everything outside the process is a `Services` parameter: whether a path
 exists, the raw text the PDF or HTML reader produces, the chat completion,
 and `json.loads`.
 */
module RfpExtractor {
  import opened Outcomes
  import opened Strings

  /** `RFPExtractor.EXPECTED_FIELDS`, in order. */
  const ExpectedFields: seq<string> := [
    "Bid Number",
    "Title",
    "Due Date",
    "Bid Submission Type",
    "Term of Bid",
    "Pre Bid Meeting",
    "Installation",
    "Bid Bond Requirement",
    "Delivery Date",
    "Payment Terms",
    "Any Additional Documentation Required",
    "MFG for Registration",
    "Contract or Cooperative to use",
    "Model_no",
    "Part_no",
    "Product",
    "contact_info",
    "company_name",
    "Bid Summary",
    "Product Specification"
  ]

  /** The value given to an expected field the model left out. */
  const NotSpecified := "Not specified"

  /** The value of every field when the reply is not valid JSON. */
  const ErrorExtracting := "Error extracting"

  /** How many characters of the document text the prompt embeds. */
  const PromptTextLimit: nat := 12000

  /** A decoded JSON value, as `json.loads` returns it. */
  datatype Json =
    | JNull
    | JBool(b: bool)
    | JInt(i: int)
    | JFloat(literal: string)
    | JString(s: string)
    | JArray(items: seq<Json>)
    | JObject(members: map<string, Json>)

  /** The outcome of `json.loads`: a value, or `JSONDecodeError`. */
  datatype Decoded = Decoded(value: Json) | DecodeError(detail: string)

  /** The two readers `extract_text_from_file` dispatches to. */
  datatype Format = Pdf | Html

  /** The exceptions the extractor raises; `Message` is `str(e)`. */
  datatype Failure =
    | FileNotFound(path: string)
    | UnsupportedFormat(extension: string)
    | PdfExtractionFailed(cause: string)
    | HtmlExtractionFailed(cause: string)
    | LlmExtractionFailed(cause: string)
  {
    function Message(): string
    {
      match this
      case FileNotFound(p) => "File not found: " + p
      case UnsupportedFormat(e) => "Unsupported file format: " + e + ". Only PDF and HTML are supported."
      case PdfExtractionFailed(c) => "Error extracting text from PDF: " + c
      case HtmlExtractionFailed(c) => "Error extracting text from HTML: " + c
      case LlmExtractionFailed(c) => "Error extracting information with LLM: " + c
    }
  }

  /** The part of the extraction prompt that depends on the document: its leading text. */
  datatype Prompt = Prompt(documentExcerpt: string)

  /**
   The collaborators: `fileExists` is `os.path.exists`; `readText(path, Pdf)`
   is the pages' text concatenated by PyMuPDF and `readText(path, Html)` is
   BeautifulSoup's `get_text()` after scripts and styles are removed (or the
   reader's exception text); `complete` is the chat completion's message
   content (or the exception text); `parse` is `json.loads`.
   */
  datatype Services = Services(
    fileExists: string -> bool,
    readText: (string, Format) -> Result<string, string>,
    complete: Prompt -> Result<string, string>,
    parse: string -> Decoded)

  /**
   One element of the batch result: `process_document`'s dictionary
   `{document_name, document_type, extracted_fields}`, or the
   `{document_name, error}` entry of a failed path.
   */
  datatype Entry =
    | Extracted(documentName: string, documentType: string, extractedFields: Json)
    | Failed(documentName: string, error: string)

  // ---------------------------------------------------------------- fields

  function FieldSet(): set<string>
  {
    set f | f in ExpectedFields
  }

  /** The twenty expected field names are distinct. */
  lemma ExpectedFieldsDistinct()
    ensures |ExpectedFields| == 20
    ensures forall i, j :: 0 <= i < j < |ExpectedFields| ==> ExpectedFields[i] != ExpectedFields[j]
    ensures |FieldSet()| == 20
  {
    DistinctCard(ExpectedFields);
  }

  lemma {:induction false} DistinctCard(xs: seq<string>)
    requires forall i, j :: 0 <= i < j < |xs| ==> xs[i] != xs[j]
    ensures |set x | x in xs| == |xs|
    decreases |xs|
  {
    if |xs| > 0 {
      DistinctCard(xs[1..]);
      assert (set x | x in xs) == (set x | x in xs[1..]) + {xs[0]};
      assert xs[0] !in (set x | x in xs[1..]);
    }
  }

  /**
   The loop over `fields` that adds each missing field with the value
   "Not specified": present keys keep their values, every field becomes a
   key, and no other key is added.
   */
  function FillDefaults(m: map<string, Json>, fields: seq<string>): (r: map<string, Json>)
    ensures forall k :: k in r <==> k in m || k in fields
    ensures forall k :: k in m ==> r[k] == m[k]
    ensures forall k :: k in r && k !in m ==> r[k] == JString(NotSpecified)
    decreases |fields|
  {
    if |fields| == 0 then m
    else
      var m' := if fields[0] in m then m else m[fields[0] := JString(NotSpecified)];
      FillDefaults(m', fields[1..])
  }

  /** The fallback object: every expected field, each set to "Error extracting". */
  function ErrorTemplate(fields: seq<string>): (r: map<string, Json>)
    ensures forall k :: k in r <==> k in fields
    ensures forall k :: k in r ==> r[k] == JString(ErrorExtracting)
  {
    map f | f in fields :: JString(ErrorExtracting)
  }

  /**
   Python's `field in value` holds for every field: key membership for an
   object, element membership for a list, substring for a string. On any
   other value the test raises, so only an empty field list passes.
   */
  predicate FieldsPresent(v: Json, fields: seq<string>)
  {
    match v
    case JObject(m) => forall f :: f in fields ==> f in m
    case JArray(items) => forall f :: f in fields ==> JString(f) in items
    case JString(s) => forall f :: f in fields ==> Contains(s, f)
    case _ => |fields| == 0
  }

  /** The `TypeError` text the "ensure all expected fields" loop raises on a non-object. */
  function FieldLoopError(v: Json): string
  {
    match v
    case JArray(_) => "list indices must be integers or slices, not str"
    case JString(_) => "'str' object does not support item assignment"
    case JNull => "argument of type 'NoneType' is not iterable"
    case JBool(_) => "argument of type 'bool' is not iterable"
    case JInt(_) => "argument of type 'int' is not iterable"
    case JFloat(_) => "argument of type 'float' is not iterable"
    case JObject(_) => ""
  }

  /**
   The "ensure all expected fields" loop on whatever `json.loads` returned.
   An object gets the defaults and always succeeds. Any other value comes
   back unchanged when every field is already "in" it; otherwise the first
   missing field raises (the `in` test itself, or the item assignment).
   */
  function EnsureFields(v: Json, fields: seq<string>): (r: Result<Json, Failure>)
    ensures r.Ok? ==> FieldsPresent(r.value, fields)
    ensures r.Err? <==> !v.JObject? && !FieldsPresent(v, fields)
    ensures v.JObject? ==> r == Ok(JObject(FillDefaults(v.members, fields)))
    ensures r.Ok? && !v.JObject? ==> r.value == v
  {
    match v
    case JObject(m) => Ok(JObject(FillDefaults(m, fields)))
    case _ =>
      if FieldsPresent(v, fields) then Ok(v)
      else Err(LlmExtractionFailed(FieldLoopError(v)))
  }

  // ---------------------------------------------------------------- reply cleanup

  /**
   The markdown-fence cleanup of the reply: strip; drop a leading "```json";
   then a leading "```"; then a trailing "```"; strip again. The result is
   stripped and no longer than the reply.
   */
  function StripFences(reply: string): (r: string)
    ensures IsStripped(r)
    ensures |r| <= |reply|
  {
    var s0 := Strip(reply);
    var s1 := if StartsWith(s0, "```json") then s0[7..] else s0;
    var s2 := if StartsWith(s1, "```") then s1[3..] else s1;
    var s3 := if EndsWith(s2, "```") then s2[..|s2| - 3] else s2;
    Strip(s3)
  }

  /** A reply that is already bare (stripped, not opening or closing with a fence) passes unchanged. */
  lemma BareReplyUnchanged(j: string)
    requires IsStripped(j) && !StartsWith(j, "```") && !EndsWith(j, "```")
    ensures StripFences(j) == j
  {
    StripStripped(j);
    assert !StartsWith(j, "```json");
  }

  /** The common end of both fence shapes: "\n" + j + "\n```" loses the fence and the newlines. */
  lemma FenceTail(j: string)
    requires IsStripped(j)
    ensures var t := "\n" + j + "\n```";
      EndsWith(t, "```") && Strip(t[..|t| - 3]) == j
  {
    var t := "\n" + j + "\n```";
    assert t[|t| - 3..] == "```";
    assert t[..|t| - 3] == "\n" + j + "\n";
    StripSurrounded("\n", j, "\n");
  }

  /** A stripped text fenced as "```json\n...\n```" comes back out of the cleanup. */
  lemma JsonFenceRoundTrip(j: string)
    requires IsStripped(j)
    ensures StripFences("```json\n" + j + "\n```") == j
  {
    var t := "\n" + j + "\n```";
    var s0 := "```json" + t;
    assert s0 == "```json\n" + j + "\n```";
    assert s0[0] == '`' && s0[|s0| - 1] == '`';
    StripStripped(s0);
    assert StartsWith(s0, "```json");
    assert s0[7..] == t;
    assert !StartsWith(t, "```") by {
      assert t[0] == '\n';
    }
    FenceTail(j);
  }

  /** A stripped text fenced as "```\n...\n```" comes back out of the cleanup. */
  lemma PlainFenceRoundTrip(j: string)
    requires IsStripped(j)
    ensures StripFences("```\n" + j + "\n```") == j
  {
    var t := "\n" + j + "\n```";
    var s0 := "```" + t;
    assert s0 == "```\n" + j + "\n```";
    assert s0[0] == '`' && s0[|s0| - 1] == '`';
    StripStripped(s0);
    assert !StartsWith(s0, "```json") by {
      assert s0[3] == '\n';
    }
    assert StartsWith(s0, "```");
    assert s0[3..] == t;
    FenceTail(j);
  }

  // ---------------------------------------------------------------- prompt and LLM step

  /** The document part of the prompt: the first 12000 characters of the text. */
  function BuildPrompt(text: string): (p: Prompt)
    ensures |p.documentExcerpt| == if |text| < PromptTextLimit then |text| else PromptTextLimit
    ensures StartsWith(text, p.documentExcerpt)
  {
    Prompt(if |text| < PromptTextLimit then text else text[..PromptTextLimit])
  }

  /**
   `extract_rfp_information` with `EXPECTED_FIELDS` as `fields`. Whatever
   it returns has every field "in" it.
   */
  function ExtractRfpInformation(text: string, fields: seq<string>, complete: Prompt -> Result<string, string>,
                                 parse: string -> Decoded): (r: Result<Json, Failure>)
    ensures r.Ok? ==> FieldsPresent(r.value, fields)
  {
    match complete(BuildPrompt(text))
    case Err(cause) => Err(LlmExtractionFailed(cause))
    case Ok(content) =>
      match parse(StripFences(content))
      case DecodeError(_) => Ok(JObject(ErrorTemplate(fields)))
      case Decoded(v) => EnsureFields(v, fields)
  }

  /**
   The outcomes of the LLM step. A failed chat call is re-raised as the LLM
   error. Otherwise the fence-cleaned reply is parsed: a decode error gives
   every field "Error extracting" and nothing else; a decoded object keeps
   its keys and values and gains "Not specified" for each missing field; any
   other decoded value comes back unchanged when every field is "in" it and
   raises the loop's TypeError otherwise.
   */
  lemma ExtractRfpInformationOutcomes(text: string, fields: seq<string>, complete: Prompt -> Result<string, string>,
                                      parse: string -> Decoded)
    ensures var r := ExtractRfpInformation(text, fields, complete, parse);
      complete(BuildPrompt(text)).Err? ==> r == Err(LlmExtractionFailed(complete(BuildPrompt(text)).error))
    ensures var r := ExtractRfpInformation(text, fields, complete, parse);
      complete(BuildPrompt(text)).Ok? && parse(StripFences(complete(BuildPrompt(text)).value)).DecodeError? ==>
        && r.Ok? && r.value.JObject?
        && (forall k :: k in r.value.members <==> k in fields)
        && (forall k :: k in r.value.members ==> r.value.members[k] == JString(ErrorExtracting))
    ensures var r := ExtractRfpInformation(text, fields, complete, parse);
      complete(BuildPrompt(text)).Ok? ==>
      var decoded := parse(StripFences(complete(BuildPrompt(text)).value));
      decoded.Decoded? && decoded.value.JObject? ==>
        var m := decoded.value.members;
        && r.Ok? && r.value.JObject?
        && (forall k :: k in r.value.members <==> k in m || k in fields)
        && (forall k :: k in m ==> r.value.members[k] == m[k])
        && (forall f :: f in fields && f !in m ==> r.value.members[f] == JString(NotSpecified))
    ensures var r := ExtractRfpInformation(text, fields, complete, parse);
      complete(BuildPrompt(text)).Ok? ==>
      var decoded := parse(StripFences(complete(BuildPrompt(text)).value));
      decoded.Decoded? && !decoded.value.JObject? ==>
        && (FieldsPresent(decoded.value, fields) ==> r == Ok(decoded.value))
        && (!FieldsPresent(decoded.value, fields) ==> r == Err(LlmExtractionFailed(FieldLoopError(decoded.value))))
  {
  }

  // ---------------------------------------------------------------- paths and dispatch

  /** `PurePath(path).name` for POSIX paths: the last component that is neither empty nor ".". */
  function FinalComponent(path: string): (name: string)
    ensures '/' !in name
    ensures name != "."
    decreases |path|
  {
    var i := LastIndexOf(path, '/');
    var last := path[i + 1..];
    if last != "" && last != "." then last
    else if i < 0 then ""
    else FinalComponent(path[..i])
  }

  /** `PurePath.suffix`: the name from its last ".", unless that dot is the first or the last character. */
  function Suffix(name: string): (ext: string)
    ensures ext == "" || (|ext| >= 2 && ext[0] == '.' && '.' !in ext[1..] && |ext| < |name| && EndsWith(name, ext))
  {
    var i := LastIndexOf(name, '.');
    if 0 < i < |name| - 1 then name[i..] else ""
  }

  /**
   The lower-cased suffix of the path's final component, the `document_type`
   of a result: empty exactly when the name has no suffix, otherwise a dot
   followed by at least one character, with no further dot, no "/" and no
   upper-case ASCII letter.
   */
  function DocumentType(path: string): (t: string)
    ensures t == "" <==> Suffix(FinalComponent(path)) == ""
    ensures t == "" || (|t| >= 2 && t[0] == '.' && '.' !in t[1..])
    ensures '/' !in t
    ensures forall k :: 0 <= k < |t| ==> !('A' <= t[k] <= 'Z')
  {
    LowerSuffixShape(Suffix(FinalComponent(path)));
    AsciiLower(Suffix(FinalComponent(path)))
  }

  /** Lower-casing a suffix keeps its shape and leaves no upper-case letter. */
  lemma LowerSuffixShape(ext: string)
    requires ext == "" || (|ext| >= 2 && ext[0] == '.' && '.' !in ext[1..])
    requires '/' !in ext
    ensures var t := AsciiLower(ext);
      && (t == "" <==> ext == "")
      && (t == "" || (|t| >= 2 && t[0] == '.' && '.' !in t[1..]))
      && '/' !in t
      && forall k :: 0 <= k < |t| ==> !('A' <= t[k] <= 'Z')
  {
    var t := AsciiLower(ext);
    forall k | 0 <= k < |ext|
      ensures !('A' <= t[k] <= 'Z') && (t[k] == '.' <==> ext[k] == '.') && (t[k] == '/' <==> ext[k] == '/')
    {
      LowerCharFacts(ext[k]);
    }
    if |t| >= 2 {
      assert forall c :: c in t[1..] ==> exists k :: 1 <= k < |t| && t[k] == c;
    }
    assert forall c :: c in t ==> exists k :: 0 <= k < |t| && t[k] == c;
  }

  /**
   The choice in `extract_text_from_file`: ".pdf" reads a PDF, ".html" or
   ".htm" reads HTML, and any other lower-cased suffix (including none) is
   the unsupported-format error naming that suffix.
   */
  function DetectFormat(path: string): (r: Result<Format, Failure>)
    ensures r == Ok(Pdf) <==> DocumentType(path) == ".pdf"
    ensures r == Ok(Html) <==> DocumentType(path) in [".html", ".htm"]
    ensures r.Err? ==> r.error == UnsupportedFormat(DocumentType(path))
  {
    var ext := DocumentType(path);
    if ext == ".pdf" then Ok(Pdf)
    else if ext in [".html", ".htm"] then Ok(Html)
    else Err(UnsupportedFormat(ext))
  }

  /** The final component of `stem + ext` is the stem's last segment followed by `ext`. */
  lemma FinalComponentOfAppended(stem: string, ext: string)
    requires |stem| > 0 && stem[|stem| - 1] != '/'
    requires |ext| >= 2 && '/' !in ext
    ensures var i := LastIndexOf(stem, '/');
      FinalComponent(stem + ext) == stem[i + 1..] + ext && |stem[i + 1..]| > 0
  {
    LastIndexOfAppend(stem, ext, '/');
    var i := LastIndexOf(stem, '/');
    assert (stem + ext)[i + 1..] == stem[i + 1..] + ext;
  }

  /** A name `seg + ext`, with `seg` non-empty and `ext` a dot followed by dot-free text, has suffix `ext`. */
  lemma SuffixOfName(seg: string, ext: string)
    requires |seg| > 0
    requires |ext| >= 2 && ext[0] == '.' && '.' !in ext[1..]
    ensures Suffix(seg + ext) == ext
  {
    assert seg + ext == (seg + [ext[0]]) + ext[1..];
    LastIndexOfAppend(seg + [ext[0]], ext[1..], '.');
    assert LastIndexOf(seg + [ext[0]], '.') == |seg|;
    assert (seg + ext)[|seg|..] == ext;
  }

  /** Appending an extension to a path that does not end in "/" makes it the suffix. */
  lemma SuffixOfAppended(stem: string, ext: string)
    requires |stem| > 0 && stem[|stem| - 1] != '/'
    requires |ext| >= 2 && ext[0] == '.' && '.' !in ext[1..] && '/' !in ext
    ensures Suffix(FinalComponent(stem + ext)) == ext
  {
    FinalComponentOfAppended(stem, ext);
    var i := LastIndexOf(stem, '/');
    SuffixOfName(stem[i + 1..], ext);
  }

  /**
   The dispatch depends only on the appended extension, ignoring ASCII case:
   `report.PDF` is a PDF, `page.Htm` is HTML, `notes.txt` is unsupported.
   */
  lemma DispatchByExtension(stem: string, ext: string)
    requires |stem| > 0 && stem[|stem| - 1] != '/'
    requires |ext| >= 2 && ext[0] == '.' && '.' !in ext[1..] && '/' !in ext
    ensures DocumentType(stem + ext) == AsciiLower(ext)
    ensures DetectFormat(stem + ext) == Ok(Pdf) <==> AsciiLower(ext) == ".pdf"
    ensures DetectFormat(stem + ext) == Ok(Html) <==> AsciiLower(ext) in [".html", ".htm"]
  {
    SuffixOfAppended(stem, ext);
  }

  /** A name whose only dot is its first character (a dot-file such as ".pdf") has no suffix. */
  lemma DotFileHasNoSuffix(name: string)
    requires |name| > 0 && name[0] == '.' && '.' !in name[1..]
    ensures Suffix(name) == ""
  {
    assert name == [name[0]] + name[1..];
    LastIndexOfAppend([name[0]], name[1..], '.');
  }

  /**
   The text holds only empty and "." components, the ones `PurePath` drops:
   every character is a "/" or a ".", and no two dots are adjacent.
   */
  predicate IgnoredComponents(t: string)
  {
    (forall k :: 0 <= k < |t| ==> t[k] == '/' || t[k] == '.') && !Contains(t, "..")
  }

  lemma IgnoredExtend(t: string, last: string)
    requires IgnoredComponents(t) && (last == "" || last == ".")
    ensures IgnoredComponents(t + "/" + last)
  {
    var u := t + "/" + last;
    assert |u| == |t| + 1 + |last|;
    forall k | 0 <= k < |u| ensures u[k] == '/' || u[k] == '.' {
      if k < |t| {
        assert u[k] == t[k];
      }
    }
    forall k | OccursAt(u, "..", k) ensures false {
      assert u[k] == '.' && u[k + 1] == '.';
      if k + 1 < |t| {
        assert t[k..k + 2] == u[k..k + 2];
        assert OccursAt(t, "..", k);
      }
    }
  }

  /**
   `name` is a whole component of `path` starting at `j` (at the start of the
   path or after a "/", at its end or before a "/") followed only by ignored
   components.
   */
  predicate ComponentAt(path: string, name: string, j: int)
  {
    0 <= j && j + |name| <= |path| && path[j..][..|name|] == name
    && (j == 0 || path[j - 1] == '/')
    && (j + |name| == |path| || path[j + |name|] == '/')
    && IgnoredComponents(path[j + |name|..])
  }

  predicate IsLastComponent(path: string, name: string)
  {
    exists j :: 0 <= j <= |path| && ComponentAt(path, name, j)
  }

  /** The text after the last "/" is the last component. */
  lemma TailIsLastComponent(path: string, i: int)
    requires -1 <= i < |path| && (i >= 0 ==> path[i] == '/')
    ensures IsLastComponent(path, path[i + 1..])
  {
    var name := path[i + 1..];
    assert path[i + 1..][..|name|] == name;
    assert path[i + 1 + |name|..] == "";
    assert ComponentAt(path, name, i + 1);
  }

  /** Appending an ignored component keeps a component where it was. */
  lemma ComponentAtExtend(pre: string, last: string, name: string, j: int)
    requires ComponentAt(pre, name, j) && (last == "" || last == ".")
    ensures ComponentAt(pre + "/" + last, name, j)
  {
    var path := pre + "/" + last;
    var e := j + |name|;
    assert path[j..][..|name|] == pre[j..][..|name|];
    assert j == 0 || path[j - 1] == pre[j - 1];
    assert IgnoredComponents(path[e..]) by {
      IgnoredExtend(pre[e..], last);
      assert path[e..] == pre[e..] + "/" + last;
    }
  }

  lemma LastComponentExtend(pre: string, last: string, name: string)
    requires IsLastComponent(pre, name) && (last == "" || last == ".")
    ensures IsLastComponent(pre + "/" + last, name)
  {
    var j :| 0 <= j <= |pre| && ComponentAt(pre, name, j);
    ComponentAtExtend(pre, last, name, j);
  }

  /** Splitting a text around one of its characters. */
  lemma AroundIndex(s: string, i: int)
    requires 0 <= i < |s|
    ensures s == s[..i] + [s[i]] + s[i + 1..]
  {
  }

  /** When the text after the last "/" is a real component, it is the name. */
  lemma FinalComponentDirect(path: string)
    requires var i := LastIndexOf(path, '/'); path[i + 1..] != "" && path[i + 1..] != "."
    ensures FinalComponent(path) != "" && IsLastComponent(path, FinalComponent(path))
  {
    TailIsLastComponent(path, LastIndexOf(path, '/'));
  }

  /**
   When the text after the last "/" is empty or ".", the name is that of the
   path before the "/", and what holds of that name carries over.
   */
  lemma FinalComponentSkips(path: string)
    requires var i := LastIndexOf(path, '/'); (path[i + 1..] == "" || path[i + 1..] == ".") && i >= 0
    requires var pre := path[..LastIndexOf(path, '/')];
      && (FinalComponent(pre) == "" ==> IgnoredComponents(pre))
      && (FinalComponent(pre) != "" ==> IsLastComponent(pre, FinalComponent(pre)))
    ensures FinalComponent(path) == "" ==> IgnoredComponents(path)
    ensures FinalComponent(path) != "" ==> IsLastComponent(path, FinalComponent(path))
  {
    var i := LastIndexOf(path, '/');
    var last := path[i + 1..];
    var pre := path[..i];
    assert FinalComponent(path) == FinalComponent(pre);
    if FinalComponent(pre) == "" {
      IgnoredExtend(pre, last);
    } else {
      LastComponentExtend(pre, last, FinalComponent(pre));
    }
    AroundIndex(path, i);
  }

  /** The path "" has no name and only ignored components. */
  lemma EmptyPathNoName(path: string)
    requires path == ""
    ensures FinalComponent(path) == "" && IgnoredComponents(path)
  {
  }

  /** The path "." has no name and only ignored components. */
  lemma DotPathNoName(path: string)
    requires path == "."
    ensures FinalComponent(path) == "" && IgnoredComponents(path)
  {
  }

  /**
   `Path(p).name` is the last component that is neither empty nor ".": when
   it is non-empty it is a whole component of the path followed only by
   ignored components; when it is empty the path holds nothing but ignored
   components.
   */
  lemma {:induction false} FinalComponentIsLastSegment(path: string)
    ensures FinalComponent(path) == "" ==> IgnoredComponents(path)
    ensures FinalComponent(path) != "" ==> IsLastComponent(path, FinalComponent(path))
    decreases |path|
  {
    var i := LastIndexOf(path, '/');
    var last := path[i + 1..];
    if last != "" && last != "." {
      FinalComponentDirect(path);
    } else if i < 0 {
      assert path == last;
      if path == "" {
        EmptyPathNoName(path);
      } else {
        DotPathNoName(path);
      }
    } else {
      FinalComponentIsLastSegment(path[..i]);
      FinalComponentSkips(path);
    }
  }

  // ---------------------------------------------------------------- HTML cleanup

  /** Each phrase stripped, keeping only the non-empty ones, in order. */
  function KeepPhrases(phrases: seq<string>): (out: seq<string>)
    ensures forall i :: 0 <= i < |out| ==> out[i] != "" && IsStripped(out[i])
  {
    if |phrases| == 0 then []
    else
      var p := Strip(phrases[|phrases| - 1]);
      KeepPhrases(phrases[..|phrases| - 1]) + (if p == "" then [] else [p])
  }

  /** For each line: strip it, split it on double spaces, keep the non-blank phrases stripped. */
  function CleanLines(lines: seq<string>): seq<string>
  {
    if |lines| == 0 then []
    else
      var n := |lines| - 1;
      CleanLines(lines[..n]) + KeepPhrases(Split(Strip(lines[n]), "  "))
  }

  /** The output lines of the cleanup of `soup.get_text()`. */
  function HtmlLines(text: string): (lines: seq<string>)
    ensures NonSpace(Join("", lines)) == NonSpace(text)
  {
    CleanLinesNonSpace(SplitLines(text));
    SplitLinesJoin(text);
    NonSpaceDropLineBreaks(text);
    CleanLines(SplitLines(text))
  }

  /**
   The text `extract_text_from_html` returns: the cleaned lines joined by
   "\n". The cleanup removes whitespace only: the result has exactly the
   non-whitespace characters of `get_text()`'s output, in the same order.
   */
  function CleanHtmlText(text: string): (r: string)
    ensures NonSpace(r) == NonSpace(text)
  {
    NonSpaceJoinSpaced("\n", HtmlLines(text));
    Join("\n", HtmlLines(text))
  }

  predicate NoLineBreak(s: string)
  {
    forall k :: 0 <= k < |s| ==> !IsLineBreak(s[k])
  }

  /** What the line cleanup may hand to stripping: no double space, no line break. */
  predicate CleanPhrase(s: string)
  {
    !Contains(s, "  ") && NoLineBreak(s)
  }

  /** An output line: non-empty, stripped, no double space, no line break. */
  predicate GoodLine(l: string)
  {
    l != "" && IsStripped(l) && CleanPhrase(l)
  }

  predicate AllGood(lines: seq<string>)
  {
    forall i :: 0 <= i < |lines| ==> GoodLine(lines[i])
  }

  lemma GoodLinesConcat(a: seq<string>, b: seq<string>)
    requires AllGood(a) && AllGood(b)
    ensures AllGood(a + b)
  {
    forall i | 0 <= i < |a + b|
      ensures GoodLine((a + b)[i])
    {
      if i >= |a| {
        assert (a + b)[i] == b[i - |a|];
      }
    }
  }

  /** A clean phrase that is not blank strips to a good line. */
  lemma StrippedPhraseGood(phrase: string)
    requires CleanPhrase(phrase) && Strip(phrase) != ""
    ensures GoodLine(Strip(phrase))
  {
    StripAvoids(phrase, "  ");
    StripNoLineBreak(phrase);
  }

  lemma {:induction false} KeepPhrasesGood(phrases: seq<string>)
    requires forall i :: 0 <= i < |phrases| ==> CleanPhrase(phrases[i])
    ensures AllGood(KeepPhrases(phrases))
  {
    if |phrases| > 0 {
      var n := |phrases| - 1;
      var init := phrases[..n];
      assert forall i :: 0 <= i < |init| ==> init[i] == phrases[i];
      KeepPhrasesGood(init);
      var p := Strip(phrases[n]);
      var tail := if p == "" then [] else [p];
      if p != "" {
        StrippedPhraseGood(phrases[n]);
      }
      assert KeepPhrases(phrases) == KeepPhrases(init) + tail;
      GoodLinesConcat(KeepPhrases(init), tail);
    }
  }

  /** Stripping keeps a line free of line breaks. */
  lemma StripNoLineBreak(line: string)
    requires NoLineBreak(line)
    ensures NoLineBreak(Strip(line))
  {
    forall k | 0 <= k < |Strip(line)|
      ensures !IsLineBreak(Strip(line)[k])
    {
      StripChar(line, k);
    }
  }

  /** The pieces of a text without line breaks have none either. */
  lemma PiecesNoLineBreak(t: string, sep: string)
    requires |sep| > 0 && NoLineBreak(t)
    ensures forall i :: 0 <= i < |Split(t, sep)| ==> NoLineBreak(Split(t, sep)[i])
  {
    var pieces := Split(t, sep);
    SplitPieceChars(t, sep);
    forall i, k | 0 <= i < |pieces| && 0 <= k < |pieces[i]|
      ensures !IsLineBreak(pieces[i][k])
    {
      var c := pieces[i][k];
      assert c in pieces[i];
      assert c in t;
      var j :| 0 <= j < |t| && t[j] == c;
    }
  }

  /** The double-space-separated phrases of a stripped line without line breaks are clean. */
  lemma PhrasesOfLine(line: string)
    requires NoLineBreak(line)
    ensures forall i :: 0 <= i < |Split(Strip(line), "  ")| ==> CleanPhrase(Split(Strip(line), "  ")[i])
  {
    StripNoLineBreak(line);
    PiecesNoLineBreak(Strip(line), "  ");
    SplitPiecesAvoidSeparator(Strip(line), "  ");
  }

  lemma {:induction false} CleanLinesGood(lines: seq<string>)
    requires forall i :: 0 <= i < |lines| ==> NoLineBreak(lines[i])
    ensures AllGood(CleanLines(lines))
  {
    if |lines| > 0 {
      var n := |lines| - 1;
      var init := lines[..n];
      assert forall i :: 0 <= i < |init| ==> init[i] == lines[i];
      CleanLinesGood(init);
      PhrasesOfLine(lines[n]);
      KeepPhrasesGood(Split(Strip(lines[n]), "  "));
      GoodLinesConcat(CleanLines(init), KeepPhrases(Split(Strip(lines[n]), "  ")));
    }
  }

  /**
   Every output line is non-empty, has no whitespace at either end, holds no
   double space and no line break.
   */
  lemma HtmlLinesGood(text: string)
    ensures forall i :: 0 <= i < |HtmlLines(text)| ==> GoodLine(HtmlLines(text)[i])
  {
    var lines := SplitLines(text);
    assert forall i :: 0 <= i < |lines| ==> NoLineBreak(lines[i]);
    CleanLinesGood(lines);
  }

  /**
   Splitting the returned text on "\n" gives back exactly the cleaned lines;
   the text is empty exactly when no line survived.
   */
  lemma CleanHtmlTextLines(text: string)
    ensures CleanHtmlText(text) == "" <==> HtmlLines(text) == []
    ensures HtmlLines(text) != [] ==> Split(CleanHtmlText(text), "\n") == HtmlLines(text)
  {
    var lines := HtmlLines(text);
    HtmlLinesGood(text);
    if lines != [] {
      forall i | 0 <= i < |lines|
        ensures '\n' !in lines[i]
      {
        assert GoodLine(lines[i]);
      }
      SplitJoinChar(lines, '\n');
      assert Split(CleanHtmlText(text), "\n") == lines;
      assert CleanHtmlText(text) != "";
    }
  }

  /** Lines that are already clean pass through the cleanup unchanged. */
  lemma {:induction false} CleanLinesIdentity(lines: seq<string>)
    requires AllGood(lines)
    ensures CleanLines(lines) == lines
  {
    if |lines| > 0 {
      var n := |lines| - 1;
      var init, l := lines[..n], lines[n];
      assert lines == init + [l];
      assert AllGood(init) by {
        forall i | 0 <= i < |init|
          ensures GoodLine(init[i])
        {
          assert init[i] == lines[i];
        }
      }
      CleanLinesIdentity(init);
      GoodLineKept(l);
    }
  }

  /** A clean line is its own only phrase, and is kept as it is. */
  lemma GoodLineKept(l: string)
    requires GoodLine(l)
    ensures KeepPhrases(Split(Strip(l), "  ")) == [l]
  {
    StripStripped(l);
    SplitWithoutSeparator(l, "  ");
    assert [l][..0] == [];
  }

  /**
   The cleanup keeps line structure: clean lines joined with "\n" come back
   as the same lines, broken at the same places, single inner spaces kept.
   */
  lemma HtmlLinesRoundTrip(lines: seq<string>)
    requires AllGood(lines)
    ensures HtmlLines(Join("\n", lines)) == lines
  {
    assert forall i, k :: 0 <= i < |lines| && 0 <= k < |lines[i]| ==> !IsLineBreak(lines[i][k]) by {
      forall i, k | 0 <= i < |lines| && 0 <= k < |lines[i]|
        ensures !IsLineBreak(lines[i][k])
      {
        assert GoodLine(lines[i]);
      }
    }
    if |lines| > 0 {
      assert GoodLine(lines[|lines| - 1]);
    }
    SplitLinesOfJoin(lines);
    CleanLinesIdentity(lines);
  }

  /** Cleaning an already cleaned text changes nothing. */
  lemma CleanHtmlTextIdempotent(text: string)
    ensures CleanHtmlText(CleanHtmlText(text)) == CleanHtmlText(text)
  {
    HtmlLinesGood(text);
    HtmlLinesRoundTrip(HtmlLines(text));
  }

  /** One more line is cleaned on its own, after the lines before it. */
  lemma CleanLinesSnoc(a: seq<string>, l: string)
    ensures CleanLines(a + [l]) == CleanLines(a) + CleanLines([l])
  {
    var al := a + [l];
    assert al[..|al| - 1] == a && al[|al| - 1] == l;
    CleanLineOf(l);
  }

  /** The cleanup works line by line: cleaning two runs of lines is cleaning each in turn. */
  lemma {:induction false} CleanLinesConcat(a: seq<string>, b: seq<string>)
    ensures CleanLines(a + b) == CleanLines(a) + CleanLines(b)
    decreases |b|
  {
    if |b| == 0 {
      assert a + b == a;
    } else {
      var n := |b| - 1;
      var init, l := b[..n], b[n];
      assert b == init + [l];
      assert a + b == (a + init) + [l];
      CleanLinesSnoc(a + init, l);
      CleanLinesSnoc(init, l);
      CleanLinesConcat(a, init);
      Regroup(CleanLines(a + b), CleanLines(a + init), CleanLines(a), CleanLines(init),
              CleanLines(b), CleanLines([l]));
    }
  }

  /** Regrouping `x == (a + i) + c` with `y == i + c` as `x == a + y`. */
  lemma Regroup<T>(x: seq<T>, p: seq<T>, a: seq<T>, i: seq<T>, y: seq<T>, c: seq<T>)
    requires x == p + c && p == a + i && y == i + c
    ensures x == a + y
  {
  }

  /** Appending an empty sequence changes nothing. */
  lemma DropEmptyBack<T>(x: seq<T>, y: seq<T>, e: seq<T>)
    requires x == y + e && e == []
    ensures x == y
  {
    assert y + e == y;
  }

  /** A single line yields the kept phrases of its stripped text. */
  lemma CleanLineOf(l: string)
    ensures CleanLines([l]) == KeepPhrases(Split(Strip(l), "  "))
  {
    assert [l][..0] == [];
  }

  /** A blank line yields no output line. */
  lemma CleanLineBlank(l: string)
    requires AllSpace(l)
    ensures CleanLines([l]) == []
  {
    CleanLineOf(l);
    StripEmptyIff(l);
    assert Split("", "  ") == [""];
    assert [""][..0] == [];
  }

  /** Whitespace at either end of a line does not change what the line yields. */
  lemma CleanLinePadded(a: string, l: string, b: string)
    requires AllSpace(a) && AllSpace(b)
    ensures CleanLines([a + l + b]) == CleanLines([l])
  {
    CleanLineOf(a + l + b);
    CleanLineOf(l);
    StripPadded(a, l, b);
  }

  /** A line of its own in front of other lines is cleaned on its own. */
  lemma CleanLinesCons(l: string, rest: seq<string>)
    ensures CleanLines([l] + rest) == CleanLines([l]) + CleanLines(rest)
  {
    CleanLinesConcat([l], rest);
  }

  /** Whitespace in front of a line does not change what it yields. */
  lemma CleanLineSpaceBefore(a: string, l: string)
    requires AllSpace(a)
    ensures CleanLines([a + l]) == CleanLines([l])
  {
    assert a + l + "" == a + l;
    CleanLinePadded(a, l, "");
  }

  /** Whitespace after a line does not change what it yields. */
  lemma CleanLineSpaceAfter(l: string, b: string)
    requires AllSpace(b)
    ensures CleanLines([l + b]) == CleanLines([l])
  {
    assert "" + l + b == l + b;
    CleanLinePadded("", l, b);
  }

  /** A glued-on whitespace character does not change what the lines yield. */
  lemma CleanLinesGlueSpace(c: char, lines: seq<string>)
    requires IsSpace(c)
    ensures CleanLines(Glue([c], lines)) == CleanLines(lines)
  {
    if |lines| == 0 {
      CleanLineBlank([c]);
    } else {
      CleanLinesGlueSpaceFirst(c, lines);
    }
  }

  /** The non-empty case: the character only pads the first line. */
  lemma CleanLinesGlueSpaceFirst(c: char, lines: seq<string>)
    requires IsSpace(c) && |lines| > 0
    ensures CleanLines(Glue([c], lines)) == CleanLines(lines)
  {
    GlueFirst([c], lines);
    CleanLinesSpaceCons(c, lines[0], lines[1..]);
  }

  /** A whitespace character in front of the first line changes nothing. */
  lemma CleanLinesSpaceCons(c: char, first: string, rest: seq<string>)
    requires IsSpace(c)
    ensures CleanLines([[c] + first] + rest) == CleanLines([first] + rest)
  {
    CleanLinesCons([c] + first, rest);
    CleanLinesCons(first, rest);
    CleanLineSpaceCharBefore(c, first);
  }

  /** A whitespace character in front of a line does not change what it yields. */
  lemma CleanLineSpaceCharBefore(c: char, l: string)
    requires IsSpace(c)
    ensures CleanLines([[c] + l]) == CleanLines([l])
  {
    CleanLineSpaceBefore([c], l);
  }

  /** A blank first line is dropped. */
  lemma HtmlLinesBlankFirst(rest: string)
    ensures CleanLines([""] + SplitLines(rest)) == HtmlLines(rest)
  {
    CleanLinesCons("", SplitLines(rest));
    CleanLineBlank("");
  }

  /** A leading line boundary is dropped with the empty line it closes. */
  lemma HtmlLinesBreakFirst(c: char, t: string)
    requires IsLineBreak(c)
    ensures HtmlLines([c] + t) == HtmlLines(BreakRest(c, t))
  {
    SplitLinesBreakFirst(c, t);
    HtmlLinesBlankFirst(BreakRest(c, t));
  }

  /** One whitespace character at the start of the text, line break or not, changes nothing. */
  lemma HtmlLinesSpaceStep(c: char, t: string)
    requires IsSpace(c)
    ensures HtmlLines([c] + t) == HtmlLines(t)
  {
    if IsLineBreak(c) {
      HtmlLinesBreakFirst(c, t);
      if c == '\r' && StartsWith(t, "\n") {
        ConsFirst(t);
        HtmlLinesBreakFirst('\n', t[1..]);
      }
    } else {
      SplitLinesGlue(c, t);
      CleanLinesGlueSpace(c, SplitLines(t));
    }
  }

  /**
   Whitespace at the start of the text, line breaks included, changes nothing:
   it only strips away or makes blank lines, which are dropped.
   */
  lemma {:induction false} HtmlLinesLeadingSpace(a: string, s: string)
    requires AllSpace(a)
    ensures HtmlLines(a + s) == HtmlLines(s)
    decreases |a|
  {
    if |a| == 0 {
      assert a + s == s;
    } else {
      assert a + s == [a[0]] + (a[1..] + s);
      HtmlLinesSpaceStep(a[0], a[1..] + s);
      AllSpaceSlice(a, 1, |a|);
      HtmlLinesLeadingSpace(a[1..], s);
    }
  }

  /** A text of whitespace only yields no lines. */
  lemma HtmlLinesAllSpace(b: string)
    requires AllSpace(b)
    ensures HtmlLines(b) == []
  {
    HtmlLinesLeadingSpace(b, "");
    assert b + "" == b;
  }

  /** Carrying in an empty partial line changes nothing. */
  lemma CleanLinesGlueEmpty(lines: seq<string>)
    ensures CleanLines(Glue("", lines)) == CleanLines(lines)
  {
    if |lines| == 0 {
      CleanLineBlank("");
    } else {
      assert "" + lines[0] == lines[0];
      assert [lines[0]] + lines[1..] == lines;
    }
  }

  /** A partial line `r` closed by a line boundary is cleaned on its own, before the lines that follow. */
  lemma CleanLinesClosed(r: string, rest: string)
    ensures CleanLines(Glue(r, [""] + SplitLines(rest))) == CleanLines([r]) + HtmlLines(rest)
  {
    GlueBlank(r, SplitLines(rest));
    CleanLinesCons(r, SplitLines(rest));
  }

  /** A partial line `r` closed by a line boundary and followed by whitespace only is all that is left. */
  lemma CleanLinesClosedBlank(r: string, rest: string)
    requires AllSpace(rest)
    ensures CleanLines(Glue(r, [""] + SplitLines(rest))) == CleanLines([r])
  {
    HtmlLinesAllSpace(rest);
    CleanLinesClosed(r, rest);
    DropEmptyBack(CleanLines(Glue(r, [""] + SplitLines(rest))), CleanLines([r]), HtmlLines(rest));
  }

  /** Whitespace after a partial line `r` only pads that line or adds blank lines. */
  lemma {:induction false} TrailingSpaceCarry(r: string, b: string)
    requires AllSpace(b)
    ensures CleanLines(Glue(r, SplitLines(b))) == CleanLines([r])
    decreases |b|
  {
    if |b| > 0 {
      var c, u := b[0], b[1..];
      ConsFirst(b);
      AllSpaceSlice(b, 1, |b|);
      if IsLineBreak(c) {
        SplitLinesBreakFirst(c, u);
        if c == '\r' && StartsWith(u, "\n") {
          AllSpaceSlice(u, 1, |u|);
        }
        CleanLinesClosedBlank(r, BreakRest(c, u));
      } else {
        TrailingSpaceGlue(r, c, u);
        TrailingSpaceCarry(r + [c], u);
        CleanLineSpaceAfter(r, [c]);
      }
    }
  }

  /** A character that is not a line break joins the partial line `r`. */
  lemma TrailingSpaceGlue(r: string, c: char, u: string)
    requires !IsLineBreak(c)
    ensures Glue(r, SplitLines([c] + u)) == Glue(r + [c], SplitLines(u))
  {
    SplitLinesGlue(c, u);
    GlueGlue(r, c, SplitLines(u));
  }

  /** Trailing whitespace leaves the lines of `s`, with a partial first line `r` carried in, as they were. */
  lemma {:induction false} TrailingCarry(r: string, s: string, b: string)
    requires AllSpace(b)
    ensures CleanLines(Glue(r, SplitLines(s + b))) == CleanLines(Glue(r, SplitLines(s)))
    decreases |s|, 1
  {
    if |s| == 0 {
      assert s + b == b;
      TrailingSpaceCarry(r, b);
    } else {
      var c, u := s[0], s[1..];
      ConsAppend(s, b);
      if IsLineBreak(c) {
        SplitLinesBreakFirst(c, u + b);
        SplitLinesBreakFirst(c, u);
        TrailingRest(c, u, b);
        CleanLinesClosed(r, BreakRest(c, u + b));
        CleanLinesClosed(r, BreakRest(c, u));
      } else {
        SplitLinesGlue(c, u + b);
        SplitLinesGlue(c, u);
        GlueGlue(r, c, SplitLines(u + b));
        GlueGlue(r, c, SplitLines(u));
        TrailingCarry(r + [c], u, b);
      }
    }
  }

  /** After a leading line boundary, the rest with trailing whitespace yields the same lines as the rest alone. */
  lemma {:induction false} TrailingRest(c: char, u: string, b: string)
    requires AllSpace(b)
    ensures HtmlLines(BreakRest(c, u + b)) == HtmlLines(BreakRest(c, u))
    decreases |u| + 1, 0
  {
    BreakRestAppend(c, u, b);
    if c == '\r' && |u| == 0 && StartsWith(b, "\n") {
      AllSpaceSlice(b, 1, |b|);
      HtmlLinesAllSpace(b[1..]);
      HtmlLinesAllSpace("");
    } else {
      TrailingCarry("", BreakRest(c, u), b);
      CleanLinesGlueEmpty(SplitLines(BreakRest(c, u) + b));
      CleanLinesGlueEmpty(SplitLines(BreakRest(c, u)));
    }
  }

  /**
   Whitespace at the end of the text, line breaks included, changes nothing:
   it only strips away or makes blank lines, which are dropped.
   */
  lemma HtmlLinesTrailingSpace(s: string, b: string)
    requires AllSpace(b)
    ensures HtmlLines(s + b) == HtmlLines(s)
  {
    TrailingCarry("", s, b);
    CleanLinesGlueEmpty(SplitLines(s + b));
    CleanLinesGlueEmpty(SplitLines(s));
  }

  /** A clean line with any whitespace around it, blank lines included, is cleaned to exactly that line. */
  lemma HtmlLinesPadded(a: string, l: string, b: string)
    requires GoodLine(l) && AllSpace(a) && AllSpace(b)
    ensures HtmlLines(a + l + b) == [l]
  {
    assert a + l + b == a + (l + b);
    HtmlLinesLeadingSpace(a, l + b);
    HtmlLinesTrailingSpace(l, b);
    HtmlLinesRoundTrip([l]);
  }

  /** Clean phrases pass through the strip-and-drop step unchanged. */
  lemma {:induction false} KeepPhrasesIdentity(phrases: seq<string>)
    requires AllGood(phrases)
    ensures KeepPhrases(phrases) == phrases
  {
    if |phrases| > 0 {
      var n := |phrases| - 1;
      var init, p := phrases[..n], phrases[n];
      assert phrases == init + [p];
      assert AllGood(init) by {
        forall i | 0 <= i < |init|
          ensures GoodLine(init[i])
        {
          assert init[i] == phrases[i];
        }
      }
      KeepPhrasesIdentity(init);
      assert GoodLine(p);
      StripStripped(p);
    }
  }

  /** Clean lines joined by "  " form one line that is non-empty, stripped and free of line breaks. */
  lemma {:induction false} DoubleSpacedLine(lines: seq<string>)
    requires |lines| > 0 && AllGood(lines)
    ensures var j := Join("  ", lines); j != "" && IsStripped(j) && NoLineBreak(j)
    decreases |lines|
  {
    assert GoodLine(lines[0]);
    if |lines| > 1 {
      var rest := lines[1..];
      assert AllGood(rest) by {
        forall i | 0 <= i < |rest|
          ensures GoodLine(rest[i])
        {
          assert rest[i] == lines[i + 1];
        }
      }
      DoubleSpacedLine(rest);
      var head, tail := lines[0], Join("  ", rest);
      var j := head + "  " + tail;
      assert Join("  ", lines) == j;
      assert j[0] == head[0];
      assert j[|j| - 1] == tail[|tail| - 1];
      forall k | 0 <= k < |j|
        ensures !IsLineBreak(j[k])
      {
        if k < |head| {
          assert j[k] == head[k];
        } else if k >= |head| + 2 {
          assert j[k] == tail[k - |head| - 2];
        }
      }
    }
  }

  /**
   Clean lines on one source line, separated by double spaces, come out as
   one output line each: a double space breaks a line.
   */
  lemma HtmlLinesDoubleSpaced(lines: seq<string>)
    requires |lines| > 0 && AllGood(lines)
    ensures HtmlLines(Join("  ", lines)) == lines
  {
    var j := Join("  ", lines);
    DoubleSpacedLine(lines);
    SplitLinesSingleLine(j);
    CleanLineOf(j);
    StripStripped(j);
    forall i | 0 <= i < |lines|
      ensures !Contains(lines[i], "  ") && (|lines[i]| == 0 || lines[i][|lines[i]| - 1] != ' ')
    {
      assert GoodLine(lines[i]);
    }
    SplitJoinDoubleSpace(lines);
    KeepPhrasesIdentity(lines);
  }

  /** One more phrase adds its own non-space content, whether it is kept or dropped. */
  lemma KeepPhrasesStep(init: seq<string>, last: string)
    ensures NonSpace(Join("", KeepPhrases(init + [last])))
         == NonSpace(Join("", KeepPhrases(init))) + NonSpace(last)
  {
    var phrases := init + [last];
    assert phrases[..|phrases| - 1] == init;
    var kept, p := KeepPhrases(init), Strip(last);
    NonSpaceStrip(last);
    if p == "" {
      assert KeepPhrases(phrases) == kept;
    } else {
      assert KeepPhrases(phrases) == kept + [p];
      NonSpaceJoinAppend(kept, p);
    }
  }

  /** Dropping blank phrases after stripping keeps the non-space content. */
  lemma {:induction false} KeepPhrasesNonSpace(phrases: seq<string>)
    ensures NonSpace(Join("", KeepPhrases(phrases))) == NonSpace(Join("", phrases))
  {
    if |phrases| > 0 {
      var n := |phrases| - 1;
      var init, last := phrases[..n], phrases[n];
      assert phrases == init + [last];
      KeepPhrasesNonSpace(init);
      KeepPhrasesStep(init, last);
      NonSpaceJoinAppend(init, last);
    }
  }

  /** The kept phrases of one line have the line's non-space content. */
  lemma LinePhrasesNonSpace(line: string)
    ensures NonSpace(Join("", KeepPhrases(Split(Strip(line), "  ")))) == NonSpace(line)
  {
    var t := Strip(line);
    var phrases := Split(t, "  ");
    KeepPhrasesNonSpace(phrases);
    NonSpaceJoinSpaced("  ", phrases);
    JoinSplit(t, "  ");
    NonSpaceStrip(line);
  }

  lemma {:induction false} CleanLinesNonSpace(lines: seq<string>)
    ensures NonSpace(Join("", CleanLines(lines))) == NonSpace(Join("", lines))
  {
    if |lines| > 0 {
      var n := |lines| - 1;
      var init, last := lines[..n], lines[n];
      assert lines == init + [last];
      NonSpaceJoinAppend(init, last);
      CleanLinesNonSpace(init);
      var kept := KeepPhrases(Split(Strip(last), "  "));
      assert CleanLines(lines) == CleanLines(init) + kept;
      NonSpaceJoinConcat(CleanLines(init), kept);
      LinePhrasesNonSpace(last);
    }
  }

  // ---------------------------------------------------------------- documents

  /**
   `extract_text_from_file`: the suffix picks the reader; PDF text is
   stripped, HTML text goes through the line cleanup, and a reader failure
   becomes that reader's error.
   */
  function ExtractTextFromFile(path: string, readText: (string, Format) -> Result<string, string>): (r: Result<string, Failure>)
    ensures r.Ok? ==> DetectFormat(path).Ok?
  {
    match DetectFormat(path)
    case Err(f) => Err(f)
    case Ok(Pdf) =>
      (match readText(path, Pdf)
       case Ok(raw) => Ok(Strip(raw))
       case Err(cause) => Err(PdfExtractionFailed(cause)))
    case Ok(Html) =>
      (match readText(path, Html)
       case Ok(raw) => Ok(CleanHtmlText(raw))
       case Err(cause) => Err(HtmlExtractionFailed(cause)))
  }

  /**
   The outcomes of text extraction: an unsupported suffix is its error,
   a reader failure is wrapped with the reader's name, PDF text comes back
   stripped, and HTML text is the cleaned lines joined by "\n".
   */
  lemma ExtractTextOutcomes(path: string, readText: (string, Format) -> Result<string, string>)
    ensures var r := ExtractTextFromFile(path, readText);
      DetectFormat(path).Err? ==> r == Err(DetectFormat(path).error)
    ensures var r := ExtractTextFromFile(path, readText);
      DetectFormat(path) == Ok(Pdf) ==>
        && (readText(path, Pdf).Ok? ==> r == Ok(Strip(readText(path, Pdf).value)))
        && (readText(path, Pdf).Err? ==> r == Err(PdfExtractionFailed(readText(path, Pdf).error)))
    ensures var r := ExtractTextFromFile(path, readText);
      DetectFormat(path) == Ok(Html) ==>
        && (readText(path, Html).Ok? ==>
              var lines := HtmlLines(readText(path, Html).value);
              r.Ok? && (r.value == "" <==> lines == []) && (lines != [] ==> Split(r.value, "\n") == lines))
        && (readText(path, Html).Err? ==> r == Err(HtmlExtractionFailed(readText(path, Html).error)))
  {
    if DetectFormat(path) == Ok(Html) && readText(path, Html).Ok? {
      CleanHtmlTextLines(readText(path, Html).value);
    }
  }

  /**
   `process_document`: a missing file, an unsupported suffix, a reader
   failure or an LLM failure is the error; otherwise the fields come with
   the file name and the lower-cased suffix, and every expected field is
   "in" them.
   */
  function ProcessDocument(path: string, env: Services): (r: Result<Entry, Failure>)
    ensures r.Ok? ==> && r.value.Extracted?
                      && r.value.documentName == FinalComponent(path)
                      && r.value.documentType == DocumentType(path)
                      && FieldsPresent(r.value.extractedFields, ExpectedFields)
  {
    if !env.fileExists(path) then Err(FileNotFound(path))
    else
      match ExtractTextFromFile(path, env.readText)
      case Err(f) => Err(f)
      case Ok(text) =>
        match ExtractRfpInformation(text, ExpectedFields, env.complete, env.parse)
        case Err(f) => Err(f)
        case Ok(fields) => Ok(Extracted(FinalComponent(path), DocumentType(path), fields))
  }

  /**
   The checks happen in order: existence first, then the suffix, then the
   reader, then the LLM, and each failure is returned as it is; a success
   needs all four and carries the LLM step's fields.
   */
  lemma ProcessDocumentOutcomes(path: string, env: Services)
    ensures var r := ProcessDocument(path, env);
      !env.fileExists(path) ==> r == Err(FileNotFound(path))
    ensures var r := ProcessDocument(path, env);
      env.fileExists(path) && DetectFormat(path).Err? ==> r == Err(DetectFormat(path).error)
    ensures var r := ProcessDocument(path, env);
      var t := ExtractTextFromFile(path, env.readText);
      env.fileExists(path) && t.Err? ==> r == Err(t.error)
    ensures var r := ProcessDocument(path, env);
      var t := ExtractTextFromFile(path, env.readText);
      r.Ok? <==> && env.fileExists(path) && DetectFormat(path).Ok? && t.Ok?
                 && ExtractRfpInformation(t.value, ExpectedFields, env.complete, env.parse).Ok?
    ensures var r := ProcessDocument(path, env);
      var t := ExtractTextFromFile(path, env.readText);
      env.fileExists(path) && t.Ok? && ExtractRfpInformation(t.value, ExpectedFields, env.complete, env.parse).Err? ==>
        r == Err(ExtractRfpInformation(t.value, ExpectedFields, env.complete, env.parse).error)
    ensures var r := ProcessDocument(path, env);
      var t := ExtractTextFromFile(path, env.readText);
      r.Ok? ==> && t.Ok? && ExtractRfpInformation(t.value, ExpectedFields, env.complete, env.parse).Ok?
                && r.value.extractedFields == ExtractRfpInformation(t.value, ExpectedFields, env.complete, env.parse).value
  {
    ExtractTextOutcomes(path, env.readText);
  }

  /** The batch entry for one path: its result, or its name with the error message. */
  function EntryFor(path: string, env: Services): (e: Entry)
    ensures e.documentName == FinalComponent(path)
    ensures e.Failed? <==> ProcessDocument(path, env).Err?
    ensures ProcessDocument(path, env).Ok? ==> e == ProcessDocument(path, env).value
    ensures ProcessDocument(path, env).Err? ==> e.error == ProcessDocument(path, env).error.Message()
  {
    match ProcessDocument(path, env)
    case Ok(e) => e
    case Err(f) => Failed(FinalComponent(path), f.Message())
  }

  /**
   `process_multiple_documents`: one entry per path, in the order given; a
   failing path does not stop the batch and yields its name and the error
   message.
   */
  method ProcessMultipleDocuments(paths: seq<string>, env: Services) returns (results: seq<Entry>)
    ensures |results| == |paths|
    ensures forall i :: 0 <= i < |paths| ==> results[i] == EntryFor(paths[i], env)
    ensures forall i :: 0 <= i < |paths| ==> results[i].documentName == FinalComponent(paths[i])
  {
    results := MapEach(paths, p => EntryFor(p, env));
  }

  /** Applies `f` to every element in order, the shape of the batch loop. */
  method MapEach<A, B>(xs: seq<A>, f: A -> B) returns (ys: seq<B>)
    ensures |ys| == |xs|
    ensures forall i :: 0 <= i < |xs| ==> ys[i] == f(xs[i])
  {
    ys := [];
    var n := 0;
    while n < |xs|
      invariant 0 <= n <= |xs|
      invariant |ys| == n
      invariant forall i :: 0 <= i < n ==> ys[i] == f(xs[i])
    {
      ys := ys + [f(xs[n])];
      n := n + 1;
    }
  }
}

=== FILE: strings.dfy ===
/**
 The part of Python's `str` behaviour the pipelines rely on: whitespace,
 `strip`, `startswith`/`endswith`, `split` with an explicit separator,
 `join`, `splitlines`, `rfind` and (ASCII) `lower`.
 */
module Strings {

  /** The characters for which Python's `str.isspace()` holds; a bare `strip()` removes these. */
  predicate IsSpace(c: char)
  {
    c == ' ' || c == '\t' || c == '\n' || c == '\r' || c == '\U{B}' || c == '\U{C}'
    || ('\U{1C}' <= c <= '\U{1F}') || c == '\U{85}' || c == '\U{A0}' || c == '\U{1680}'
    || ('\U{2000}' <= c <= '\U{200A}') || c == '\U{2028}' || c == '\U{2029}'
    || c == '\U{202F}' || c == '\U{205F}' || c == '\U{3000}'
  }

  /** The line boundaries of Python's `str.splitlines()`; the pair "\r\n" counts as one. */
  predicate IsLineBreak(c: char)
  {
    c == '\n' || c == '\r' || c == '\U{B}' || c == '\U{C}' || ('\U{1C}' <= c <= '\U{1E}')
    || c == '\U{85}' || c == '\U{2028}' || c == '\U{2029}'
  }

  predicate AllSpace(s: string)
  {
    forall k :: 0 <= k < |s| ==> IsSpace(s[k])
  }

  /** No whitespace at either end: what `strip()` leaves. */
  predicate IsStripped(s: string)
  {
    |s| == 0 || (!IsSpace(s[0]) && !IsSpace(s[|s| - 1]))
  }

  predicate StartsWith(s: string, prefix: string)
  {
    |prefix| <= |s| && s[..|prefix|] == prefix
  }

  predicate EndsWith(s: string, suffix: string)
  {
    |suffix| <= |s| && s[|s| - |suffix|..] == suffix
  }

  predicate OccursAt(s: string, sub: string, k: int)
  {
    0 <= k && k + |sub| <= |s| && s[k..k + |sub|] == sub
  }

  /** Python's `sub in s`. */
  predicate Contains(s: string, sub: string)
  {
    exists k :: 0 <= k <= |s| - |sub| && OccursAt(s, sub, k)
  }

  // ---------------------------------------------------------------- strip

  /** Python's `lstrip()`. */
  function LStrip(s: string): (r: string)
    ensures |r| <= |s| && r == s[|s| - |r|..]
    ensures |r| > 0 ==> !IsSpace(r[0])
    ensures forall k :: 0 <= k < |s| - |r| ==> IsSpace(s[k])
  {
    if |s| > 0 && IsSpace(s[0]) then LStrip(s[1..]) else s
  }

  /** Python's `rstrip()`. */
  function RStrip(s: string): (r: string)
    ensures |r| <= |s| && r == s[..|r|]
    ensures |r| > 0 ==> !IsSpace(r[|r| - 1])
    ensures forall k :: |r| <= k < |s| ==> IsSpace(s[k])
  {
    if |s| > 0 && IsSpace(s[|s| - 1]) then RStrip(s[..|s| - 1]) else s
  }

  /**
   Python's `strip()`: the slice `s[i..i + |r|]` that has no whitespace at
   either end and only whitespace outside it.
   */
  function Strip(s: string): (r: string)
    ensures IsStripped(r)
    ensures var i := |s| - |LStrip(s)|;
      && i + |r| <= |s|
      && r == s[i..][..|r|]
  {
    RStrip(LStrip(s))
  }

  /** Each character of the stripped text sits at its offset past the stripped prefix. */
  lemma StripChar(s: string, k: int)
    requires 0 <= k < |Strip(s)|
    ensures |s| - |LStrip(s)| + k < |s|
    ensures Strip(s)[k] == s[|s| - |LStrip(s)| + k]
  {
  }

  /** What `strip()` removes is whitespace only: everything before and after the kept slice. */
  lemma StripRemovesOnlySpace(s: string)
    ensures var i := |s| - |LStrip(s)|;
      && (forall k :: 0 <= k < i ==> IsSpace(s[k]))
      && (forall k :: i + |Strip(s)| <= k < |s| ==> IsSpace(s[k]))
  {
    var l := LStrip(s);
    var i := |s| - |l|;
    var r := RStrip(l);
    assert Strip(s) == r;
    forall k | i + |r| <= k < |s|
      ensures IsSpace(s[k])
    {
      assert s[k] == l[k - i];
    }
  }

  /** Stripping a stripped string changes nothing (so `strip` is idempotent). */
  lemma StripStripped(s: string)
    requires IsStripped(s)
    ensures Strip(s) == s
  {
  }

  /** `strip()` yields "" exactly when the string is all whitespace. */
  lemma StripEmptyIff(s: string)
    ensures Strip(s) == "" <==> AllSpace(s)
  {
    if Strip(s) != "" {
      var i := |s| - |LStrip(s)|;
      assert !IsSpace(s[i]);
    }
  }

  lemma AllSpaceSlice(s: string, i: int, j: int)
    requires 0 <= i <= j <= |s| && AllSpace(s)
    ensures AllSpace(s[i..j])
  {
    forall k | 0 <= k < j - i
      ensures IsSpace(s[i..j][k])
    {
      assert s[i..j][k] == s[i + k];
    }
  }

  /** A leading whitespace character is stripped. */
  lemma LStripCons(c: char, t: string)
    requires IsSpace(c)
    ensures LStrip([c] + t) == LStrip(t)
  {
    assert ([c] + t)[1..] == t;
  }

  lemma {:induction false} LStripSpacePrefix(a: string, x: string)
    requires AllSpace(a)
    ensures LStrip(a + x) == LStrip(x)
    decreases |a|
  {
    if |a| > 0 {
      ConsAppend(a, x);
      LStripCons(a[0], a[1..] + x);
      AllSpaceSlice(a, 1, |a|);
      LStripSpacePrefix(a[1..], x);
    } else {
      assert a + x == x;
    }
  }

  lemma {:induction false} RStripSpaceSuffix(x: string, b: string)
    requires AllSpace(b)
    ensures RStrip(x + b) == RStrip(x)
    decreases |b|
  {
    if |b| > 0 {
      assert (x + b)[|x + b| - 1] == b[|b| - 1];
      assert RStrip(x + b) == RStrip((x + b)[..|x + b| - 1]);
      assert (x + b)[..|x + b| - 1] == x + b[..|b| - 1];
      AllSpaceSlice(b, 0, |b| - 1);
      RStripSpaceSuffix(x, b[..|b| - 1]);
    } else {
      assert x + b == x;
    }
  }

  /** Stripping adds no characters. */
  lemma StripKeepsAbsence(s: string, c: char)
    requires c !in s
    ensures c !in Strip(s)
  {
    var lo := |s| - |LStrip(s)|;
    var d := s[lo..];
    assert c !in d;
    assert Strip(s) == d[..|Strip(s)|];
  }

  /** Whitespace around a stripped string is exactly what `strip()` removes. */
  lemma StripSurrounded(a: string, j: string, b: string)
    requires AllSpace(a) && AllSpace(b) && IsStripped(j)
    ensures Strip(a + j + b) == j
  {
    assert a + j + b == a + (j + b);
    LStripSpacePrefix(a, j + b);
    if |j| == 0 {
      assert j + b == b;
      StripEmptyIff(b);
    } else {
      assert LStrip(j + b) == j + b;
      RStripSpaceSuffix(j, b);
    }
  }

  lemma AllSpaceConcat(a: string, b: string)
    requires AllSpace(a) && AllSpace(b)
    ensures AllSpace(a + b)
  {
    forall k | 0 <= k < |a + b|
      ensures IsSpace((a + b)[k])
    {
      if k >= |a| {
        assert (a + b)[k] == b[k - |a|];
      }
    }
  }

  /** When `l` has a non-space character, `lstrip()` stops inside it and keeps what follows whole. */
  lemma {:induction false} LStripAppend(l: string, b: string)
    requires !AllSpace(l)
    ensures LStrip(l + b) == LStrip(l) + b
    decreases |l|
  {
    assert (l + b)[0] == l[0];
    if IsSpace(l[0]) {
      assert (l + b)[1..] == l[1..] + b;
      assert !AllSpace(l[1..]) by {
        var k :| 0 <= k < |l| && !IsSpace(l[k]);
        assert l[1..][k - 1] == l[k];
      }
      LStripAppend(l[1..], b);
    }
  }

  /** Whitespace added around any string does not change what `strip()` keeps. */
  lemma StripPadded(a: string, l: string, b: string)
    requires AllSpace(a) && AllSpace(b)
    ensures Strip(a + l + b) == Strip(l)
  {
    if AllSpace(l) {
      AllSpaceConcat(a, l);
      AllSpaceConcat(a + l, b);
      StripEmptyIff(a + l + b);
      StripEmptyIff(l);
    } else {
      assert a + l + b == a + (l + b);
      LStripSpacePrefix(a, l + b);
      LStripAppend(l, b);
      RStripSpaceSuffix(LStrip(l), b);
    }
  }

  // ---------------------------------------------------------------- join and split

  /** Python's `sep.join(parts)`; with `sep == ""` it is plain concatenation. */
  function Join(sep: string, parts: seq<string>): string
    decreases |parts|
  {
    if |parts| == 0 then ""
    else if |parts| == 1 then parts[0]
    else parts[0] + sep + Join(sep, parts[1..])
  }

  lemma JoinPrepend(sep: string, c: string, parts: seq<string>)
    requires |parts| >= 1
    ensures Join(sep, [c + parts[0]] + parts[1..]) == c + Join(sep, parts)
  {
    var ps := [c + parts[0]] + parts[1..];
    assert ps[1..] == parts[1..];
  }

  /** Concatenation (`"".join`) of a list that starts with `c`. */
  lemma JoinEmptyCons(c: string, rest: seq<string>)
    ensures Join("", [c] + rest) == c + Join("", rest)
  {
    if |rest| == 0 {
      assert [c] + rest == [c];
    } else {
      assert ([c] + rest)[1..] == rest;
    }
  }

  lemma {:induction false} JoinEmptyAppend(parts: seq<string>, last: string)
    ensures Join("", parts + [last]) == Join("", parts) + last
    decreases |parts|
  {
    if |parts| == 0 {
      assert parts + [last] == [last];
    } else {
      assert (parts + [last])[1..] == parts[1..] + [last];
      JoinEmptyAppend(parts[1..], last);
    }
  }

  /** Python's `s.split(sep)` for a non-empty separator: leftmost, non-overlapping occurrences. */
  function Split(s: string, sep: string): (parts: seq<string>)
    requires |sep| > 0
    ensures |parts| >= 1
    decreases |s|
  {
    if |s| < |sep| then [s]
    else if s[..|sep|] == sep then [""] + Split(s[|sep|..], sep)
    else
      var rest := Split(s[1..], sep);
      [[s[0]] + rest[0]] + rest[1..]
  }

  /** Joining the pieces with the separator gives back the original string. */
  lemma {:induction false} JoinSplit(s: string, sep: string)
    requires |sep| > 0
    ensures Join(sep, Split(s, sep)) == s
    decreases |s|
  {
    if |s| < |sep| {
    } else if s[..|sep|] == sep {
      var rest := Split(s[|sep|..], sep);
      JoinSplit(s[|sep|..], sep);
      var parts := [""] + rest;
      assert Split(s, sep) == parts;
      assert parts[0] == "" && parts[1..] == rest;
      assert Join(sep, parts) == "" + sep + Join(sep, rest);
      assert s == sep + s[|sep|..];
    } else {
      var rest := Split(s[1..], sep);
      JoinSplit(s[1..], sep);
      JoinPrepend(sep, [s[0]], rest);
      assert s == [s[0]] + s[1..];
    }
  }

  /** The first piece is a prefix of the string. */
  lemma {:induction false} SplitHeadIsPrefix(s: string, sep: string)
    requires |sep| > 0
    ensures var p := Split(s, sep)[0]; |p| <= |s| && p == s[..|p|]
    decreases |s|
  {
    if |s| >= |sep| && s[..|sep|] != sep {
      SplitHeadIsPrefix(s[1..], sep);
    }
  }

  /** No piece of `Split(s, sep)` contains the separator. */
  lemma {:induction false} SplitPiecesAvoidSeparator(s: string, sep: string)
    requires |sep| > 0
    ensures forall i :: 0 <= i < |Split(s, sep)| ==> !Contains(Split(s, sep)[i], sep)
    decreases |s|
  {
    var parts := Split(s, sep);
    if |s| < |sep| {
      forall k | OccursAt(s, sep, k)
        ensures false
      {
      }
    } else if s[..|sep|] == sep {
      SplitPiecesAvoidSeparator(s[|sep|..], sep);
      var rest := Split(s[|sep|..], sep);
      assert parts == [""] + rest;
      forall i | 0 <= i < |parts|
        ensures !Contains(parts[i], sep)
      {
        if i == 0 {
          forall k | OccursAt("", sep, k)
            ensures false
          {
          }
        } else {
          assert parts[i] == rest[i - 1];
        }
      }
    } else {
      SplitPiecesAvoidSeparator(s[1..], sep);
      var rest := Split(s[1..], sep);
      assert parts == [[s[0]] + rest[0]] + rest[1..];
      SplitHeadIsPrefix(s[1..], sep);
      ConsAvoidsSeparator(s, sep, rest[0]);
      forall i | 0 <= i < |parts|
        ensures !Contains(parts[i], sep)
      {
        if i > 0 {
          assert parts[i] == rest[i];
        }
      }
    }
  }

  /**
   A piece that starts the rest of `s` and avoids `sep` still avoids it with
   the first character of `s` in front, when `s` does not start with `sep`.
   */
  lemma ConsAvoidsSeparator(s: string, sep: string, p: string)
    requires |sep| > 0 && |s| >= |sep| && s[..|sep|] != sep
    requires |p| <= |s| - 1 && p == s[1..][..|p|] && !Contains(p, sep)
    ensures !Contains([s[0]] + p, sep)
  {
    var head := [s[0]] + p;
    assert head == s[..|head|];
    forall k | OccursAt(head, sep, k)
      ensures false
    {
      if k > 0 {
        assert head[k..k + |sep|] == p[k - 1..k - 1 + |sep|];
        assert OccursAt(p, sep, k - 1);
      }
    }
  }

  /** Every character of every piece comes from the split string. */
  lemma {:induction false} SplitPieceChars(s: string, sep: string)
    requires |sep| > 0
    ensures forall i, c :: 0 <= i < |Split(s, sep)| && c in Split(s, sep)[i] ==> c in s
    decreases |s|
  {
    var parts := Split(s, sep);
    if |s| < |sep| {
    } else if s[..|sep|] == sep {
      SplitPieceChars(s[|sep|..], sep);
      var rest := Split(s[|sep|..], sep);
      assert parts == [""] + rest;
      forall i, c | 0 <= i < |parts| && c in parts[i]
        ensures c in s
      {
        assert parts[i] == rest[i - 1];
        assert c in s[|sep|..];
      }
    } else {
      SplitPieceChars(s[1..], sep);
      var rest := Split(s[1..], sep);
      assert parts == [[s[0]] + rest[0]] + rest[1..];
      forall i, c | 0 <= i < |parts| && c in parts[i]
        ensures c in s
      {
        if i == 0 {
          if c != s[0] {
            assert c in rest[0];
          }
        } else {
          assert parts[i] == rest[i];
        }
        if c != s[0] {
          assert c in s[1..];
        }
      }
    }
  }

  /** A string without the separator splits into itself alone. */
  lemma {:induction false} SplitWithoutSeparator(s: string, sep: string)
    requires |sep| > 0 && !Contains(s, sep)
    ensures Split(s, sep) == [s]
    decreases |s|
  {
    if |s| >= |sep| {
      if s[..|sep|] == sep {
        assert OccursAt(s, sep, 0);
      }
      forall k | OccursAt(s[1..], sep, k)
        ensures false
      {
        assert s[1..][k..k + |sep|] == s[k + 1..k + 1 + |sep|];
        assert OccursAt(s, sep, k + 1);
      }
      SplitWithoutSeparator(s[1..], sep);
      assert [s[0]] + s[1..] == s;
    }
  }

  /** For a one-character separator, containing it is membership. */
  lemma ContainsChar(s: string, c: char)
    ensures Contains(s, [c]) <==> c in s
  {
    if c in s {
      var k :| 0 <= k < |s| && s[k] == c;
      assert OccursAt(s, [c], k);
    }
    if Contains(s, [c]) {
      var k :| 0 <= k <= |s| - 1 && OccursAt(s, [c], k);
      assert s[k] == s[k..k + 1][0];
    }
  }

  /** Text placed between two others occurs in the whole. */
  lemma ContainsInfix(a: string, b: string, c: string)
    ensures Contains(a + b + c, b)
  {
    assert (a + b + c)[|a|..|a| + |b|] == b;
    assert OccursAt(a + b + c, b, |a|);
  }

  /** Occurrences survive putting text in front. */
  lemma ContainsAfterPrefix(x: string, y: string, sub: string)
    requires Contains(y, sub)
    ensures Contains(x + y, sub)
  {
    var k :| 0 <= k <= |y| - |sub| && OccursAt(y, sub, k);
    assert (x + y)[|x| + k..|x| + k + |sub|] == y[k..k + |sub|];
    assert OccursAt(x + y, sub, |x| + k);
  }

  /** Occurrences survive appending text. */
  lemma ContainsBeforeSuffix(x: string, y: string, sub: string)
    requires Contains(x, sub)
    ensures Contains(x + y, sub)
  {
    var k :| 0 <= k <= |x| - |sub| && OccursAt(x, sub, k);
    assert (x + y)[k..k + |sub|] == x[k..k + |sub|];
    assert OccursAt(x + y, sub, k);
  }

  /** Every part occurs in the joined string. */
  lemma {:induction false} JoinContainsPart(sep: string, parts: seq<string>, i: nat)
    requires i < |parts|
    ensures Contains(Join(sep, parts), parts[i])
    decreases |parts|
  {
    if |parts| == 1 {
      ContainsInfix("", parts[0], "");
      assert "" + parts[0] + "" == parts[0];
    } else if i == 0 {
      ContainsInfix("", parts[0], sep + Join(sep, parts[1..]));
      assert "" + parts[0] + (sep + Join(sep, parts[1..])) == Join(sep, parts);
    } else {
      JoinContainsPart(sep, parts[1..], i - 1);
      ContainsAfterPrefix(parts[0] + sep, Join(sep, parts[1..]), parts[i]);
      assert (parts[0] + sep) + Join(sep, parts[1..]) == Join(sep, parts);
    }
  }

  /** An occurrence inside a slice is an occurrence in the whole string, shifted by the slice start. */
  lemma SliceOccurrence(s: string, i: int, j: int, sub: string, k: int)
    requires 0 <= i <= j <= |s|
    ensures OccursAt(s[i..j], sub, k) ==> OccursAt(s, sub, i + k)
  {
    if OccursAt(s[i..j], sub, k) {
      forall m | 0 <= m < |sub|
        ensures s[i + k..i + k + |sub|][m] == sub[m]
      {
        assert s[i..j][k..k + |sub|][m] == sub[m];
        assert s[i..j][k..k + |sub|][m] == s[i + k + m];
      }
      assert s[i + k..i + k + |sub|] == sub;
    }
  }

  /** A substring of a string that avoids `sub` avoids it too. */
  lemma SliceAvoids(s: string, i: int, j: int, sub: string)
    requires 0 <= i <= j <= |s| && !Contains(s, sub)
    ensures !Contains(s[i..j], sub)
  {
    forall k | 0 <= k <= |s[i..j]| - |sub|
      ensures !OccursAt(s[i..j], sub, k)
    {
      SliceOccurrence(s, i, j, sub, k);
    }
  }

  /** A suffix has no occurrence the whole text lacks. */
  lemma DropAvoids(s: string, i: int, sub: string)
    requires 0 <= i <= |s| && !Contains(s, sub)
    ensures !Contains(s[i..], sub)
  {
    SliceAvoids(s, i, |s|, sub);
    assert s[i..|s|] == s[i..];
  }

  /** A prefix has no occurrence the whole text lacks. */
  lemma TakeAvoids(s: string, n: int, sub: string)
    requires 0 <= n <= |s| && !Contains(s, sub)
    ensures !Contains(s[..n], sub)
  {
    SliceAvoids(s, 0, n, sub);
    assert s[0..n] == s[..n];
  }

  /** Stripping cannot create an occurrence. */
  lemma StripAvoids(s: string, sub: string)
    requires !Contains(s, sub)
    ensures !Contains(Strip(s), sub)
  {
    var i := |s| - |LStrip(s)|;
    DropAvoids(s, i, sub);
    TakeAvoids(s[i..], |Strip(s)|, sub);
  }

  /** Number of occurrences of a character. */
  function CountChar(s: string, c: char): nat
    decreases |s|
  {
    if |s| == 0 then 0 else (if s[0] == c then 1 else 0) + CountChar(s[1..], c)
  }

  /** Splitting on one character yields one more piece than it has occurrences. */
  lemma {:induction false} SplitCharCount(s: string, c: char)
    ensures |Split(s, [c])| == CountChar(s, c) + 1
    decreases |s|
  {
    if |s| >= 1 {
      SplitCharCount(s[1..], c);
      if s[..1] == [c] {
        assert s[0] == c;
        assert s[1..] == s[|[c]|..];
      } else {
        assert s[0] != c;
      }
    }
  }

  lemma {:induction false} SplitAfterFirstSeparator(x: string, c: char, y: string)
    requires c !in x
    ensures Split(x + [c] + y, [c]) == [x] + Split(y, [c])
    decreases |x|
  {
    var s := x + [c] + y;
    if |x| == 0 {
      assert s == [c] + y;
      assert s[..1] == [c];
      assert s[1..] == y;
    } else {
      assert s[..1] != [c] by { assert s[0] == x[0]; }
      assert s[1..] == x[1..] + [c] + y;
      SplitAfterFirstSeparator(x[1..], c, y);
      assert [s[0]] + x[1..] == x;
    }
  }

  /**
   A piece followed by the separator splits off first when no occurrence of
   the separator starts inside the piece.
   */
  lemma {:induction false} SplitAfterPiece(x: string, sep: string, y: string)
    requires |sep| > 0
    requires forall k :: 0 <= k < |x| ==> !OccursAt(x + sep + y, sep, k)
    ensures Split(x + sep + y, sep) == [x] + Split(y, sep)
    decreases |x|
  {
    var s := x + sep + y;
    if |x| == 0 {
      assert s == sep + y;
      assert s[..|sep|] == sep;
      assert s[|sep|..] == y;
    } else {
      assert !OccursAt(s, sep, 0);
      assert s[1..] == x[1..] + sep + y;
      forall k | 0 <= k < |x[1..]|
        ensures !OccursAt(x[1..] + sep + y, sep, k)
      {
        assert !OccursAt(s, sep, k + 1);
        if k + 1 + |sep| <= |s| {
          assert s[1..][k..k + |sep|] == s[k + 1..k + 1 + |sep|];
        }
      }
      SplitAfterPiece(x[1..], sep, y);
      assert [x[0]] + x[1..] == x;
    }
  }

  /** A piece without "  " that does not end in a space splits off before "  ". */
  lemma DoubleSpaceAfterPiece(x: string, y: string)
    requires !Contains(x, "  ") && (|x| == 0 || x[|x| - 1] != ' ')
    ensures Split(x + "  " + y, "  ") == [x] + Split(y, "  ")
  {
    var s := x + "  " + y;
    forall k | 0 <= k < |x|
      ensures !OccursAt(s, "  ", k)
    {
      if k + 2 <= |x| {
        assert s[k..k + 2] == x[k..k + 2];
        assert !OccursAt(x, "  ", k);
      } else {
        assert s[k] == x[|x| - 1];
      }
    }
    SplitAfterPiece(x, "  ", y);
  }

  /** Pieces without "  " and without a trailing space, joined by "  ", split back into the pieces. */
  lemma {:induction false} SplitJoinDoubleSpace(parts: seq<string>)
    requires |parts| >= 1
    requires forall i :: 0 <= i < |parts| ==> !Contains(parts[i], "  ")
    requires forall i :: 0 <= i < |parts| ==> |parts[i]| == 0 || parts[i][|parts[i]| - 1] != ' '
    ensures Split(Join("  ", parts), "  ") == parts
    decreases |parts|
  {
    if |parts| == 1 {
      SplitWithoutSeparator(parts[0], "  ");
    } else {
      SplitJoinDoubleSpace(parts[1..]);
      DoubleSpaceAfterPiece(parts[0], Join("  ", parts[1..]));
      assert [parts[0]] + parts[1..] == parts;
    }
  }

  /** Joining pieces free of a one-character separator and splitting again gives the pieces. */
  lemma {:induction false} SplitJoinChar(parts: seq<string>, c: char)
    requires |parts| >= 1
    requires forall i :: 0 <= i < |parts| ==> c !in parts[i]
    ensures Split(Join([c], parts), [c]) == parts
    decreases |parts|
  {
    if |parts| == 1 {
      ContainsChar(parts[0], c);
      SplitWithoutSeparator(parts[0], [c]);
    } else {
      SplitJoinChar(parts[1..], c);
      SplitAfterFirstSeparator(parts[0], c, Join([c], parts[1..]));
      assert [parts[0]] + parts[1..] == parts;
    }
  }

  // ---------------------------------------------------------------- lines

  /**
   Python's `s.splitlines()`: the lines without their terminators; a final
   terminator does not open an empty last line, and "" has no lines.
   */
  function SplitLines(s: string): (lines: seq<string>)
    ensures forall i, k :: 0 <= i < |lines| && 0 <= k < |lines[i]| ==> !IsLineBreak(lines[i][k])
    ensures |s| > 0 ==> |lines| > 0
    decreases |s|
  {
    if |s| == 0 then []
    else if s[0] == '\r' && |s| >= 2 && s[1] == '\n' then [""] + SplitLines(s[2..])
    else if IsLineBreak(s[0]) then [""] + SplitLines(s[1..])
    else
      var rest := SplitLines(s[1..]);
      if |rest| == 0 then [[s[0]]]
      else [[s[0]] + rest[0]] + rest[1..]
  }

  /** The text with every line-boundary character removed. */
  function DropLineBreaks(s: string): (r: string)
    ensures |r| <= |s|
    ensures forall k :: 0 <= k < |r| ==> !IsLineBreak(r[k])
    decreases |s|
  {
    if |s| == 0 then ""
    else (if IsLineBreak(s[0]) then "" else [s[0]]) + DropLineBreaks(s[1..])
  }

  /**
   The lines concatenated are the text without its line boundaries: nothing
   but the boundaries is lost, and the characters keep their order.
   */
  lemma {:induction false} SplitLinesJoin(s: string)
    ensures Join("", SplitLines(s)) == DropLineBreaks(s)
    decreases |s|
  {
    if |s| == 0 {
    } else if s[0] == '\r' && |s| >= 2 && s[1] == '\n' {
      SplitLinesJoin(s[2..]);
      JoinEmptyCons("", SplitLines(s[2..]));
      assert s[1..][1..] == s[2..];
      assert DropLineBreaks(s[1..]) == DropLineBreaks(s[2..]);
    } else if IsLineBreak(s[0]) {
      SplitLinesJoin(s[1..]);
      JoinEmptyCons("", SplitLines(s[1..]));
    } else {
      var rest := SplitLines(s[1..]);
      SplitLinesJoin(s[1..]);
      if |rest| == 0 {
        assert s[1..] == "";
      } else {
        JoinPrepend("", [s[0]], rest);
      }
    }
  }

  /** One line boundary of `splitlines()`: "\r\n", or a single line-break character. */
  predicate LineBoundary(b: string)
  {
    b == "\r\n" || (|b| == 1 && IsLineBreak(b[0]))
  }

  /**
   A line without terminator followed by any one boundary splits off as one
   line; a lone "\r" directly before "\n" is not a boundary of its own.
   */
  lemma {:induction false} SplitLinesAtBoundary(l: string, b: string, rest: string)
    requires forall k :: 0 <= k < |l| ==> !IsLineBreak(l[k])
    requires LineBoundary(b) && !(b == "\r" && StartsWith(rest, "\n"))
    ensures SplitLines(l + (b + rest)) == [l] + SplitLines(rest)
    decreases |l|
  {
    var s := l + (b + rest);
    if |l| == 0 {
      assert s == b + rest;
      if b == "\r\n" {
        assert s[2..] == rest;
      } else {
        assert s[1..] == rest;
      }
    } else {
      assert s[1..] == l[1..] + (b + rest);
      SplitLinesAtBoundary(l[1..], b, rest);
      assert [l[0]] + l[1..] == l;
    }
  }

  /** A non-empty line without terminator is its own single line. */
  lemma {:induction false} SplitLinesSingleLine(l: string)
    requires |l| > 0
    requires forall k :: 0 <= k < |l| ==> !IsLineBreak(l[k])
    ensures SplitLines(l) == [l]
    decreases |l|
  {
    if |l| == 1 {
      assert l[1..] == "";
      assert l == [l[0]];
    } else {
      SplitLinesSingleLine(l[1..]);
      assert [l[0]] + l[1..] == l;
    }
  }

  /**
   Splitting lines joined with "\n" gives them back, as long as none holds
   a line boundary and the last is not empty (a trailing "\n" opens no line).
   */
  lemma {:induction false} SplitLinesOfJoin(ls: seq<string>)
    requires forall i, k :: 0 <= i < |ls| && 0 <= k < |ls[i]| ==> !IsLineBreak(ls[i][k])
    requires |ls| > 0 ==> ls[|ls| - 1] != ""
    ensures SplitLines(Join("\n", ls)) == ls
    decreases |ls|
  {
    if |ls| == 0 {
    } else if |ls| == 1 {
      SplitLinesSingleLine(ls[0]);
    } else {
      var tail := Join("\n", ls[1..]);
      assert Join("\n", ls) == ls[0] + ("\n" + tail);
      SplitLinesAtBoundary(ls[0], "\n", tail);
      SplitLinesOfJoin(ls[1..]);
      assert [ls[0]] + ls[1..] == ls;
    }
  }

  /** `lines` with `r` glued to the front of the first line, or `[r]` when there is no line. */
  function Glue(r: string, lines: seq<string>): (glued: seq<string>)
    ensures |glued| == if |lines| == 0 then 1 else |lines|
  {
    if |lines| == 0 then [r] else [r + lines[0]] + lines[1..]
  }

  /** A character that is not a line boundary belongs to the first line of what follows it. */
  lemma SplitLinesGlue(c: char, t: string)
    requires !IsLineBreak(c)
    ensures SplitLines([c] + t) == Glue([c], SplitLines(t))
  {
    assert ([c] + t)[1..] == t;
  }

  /** What follows a leading line-break character `c`: "\r\n" is one boundary, so its "\n" is skipped too. */
  function BreakRest(c: char, t: string): (rest: string)
    ensures rest == t || (|t| > 0 && rest == t[1..])
  {
    if c == '\r' && StartsWith(t, "\n") then t[1..] else t
  }

  /** A leading line boundary closes an empty first line. */
  lemma SplitLinesBreakFirst(c: char, t: string)
    requires IsLineBreak(c)
    ensures SplitLines([c] + t) == [""] + SplitLines(BreakRest(c, t))
  {
    var s := [c] + t;
    if c == '\r' && StartsWith(t, "\n") {
      assert s[2..] == t[1..];
    } else {
      assert s[1..] == t;
    }
  }

  /** Trailing text after `u` follows the boundary's rest, unless `u` is empty and the boundary "\r" meets a "\n" in it. */
  lemma BreakRestAppend(c: char, u: string, b: string)
    ensures if c == '\r' && |u| == 0 && StartsWith(b, "\n")
            then BreakRest(c, u + b) == b[1..] && BreakRest(c, u) == ""
            else BreakRest(c, u + b) == BreakRest(c, u) + b
  {
    if |u| == 0 {
      assert u + b == b;
    } else {
      assert (u + b)[..1] == u[..1];
      assert (u + b)[1..] == u[1..] + b;
    }
  }

  /** A non-empty text is its first character followed by the rest. */
  lemma ConsFirst(t: string)
    requires |t| > 0
    ensures t == [t[0]] + t[1..]
  {
  }

  /** Splitting off the first character commutes with appending. */
  lemma ConsAppend(s: string, b: string)
    requires |s| > 0
    ensures s == [s[0]] + s[1..]
    ensures s + b == [s[0]] + (s[1..] + b)
  {
  }

  /** With a first line present, the partial line `r` is glued to its front. */
  lemma GlueFirst(r: string, lines: seq<string>)
    requires |lines| > 0
    ensures lines == [lines[0]] + lines[1..]
    ensures Glue(r, lines) == [r + lines[0]] + lines[1..]
  {
  }

  /** A partial line glued onto an empty first line stands as a line of its own. */
  lemma GlueBlank(r: string, lines: seq<string>)
    ensures Glue(r, [""] + lines) == [r] + lines
  {
    assert r + "" == r;
    assert ([""] + lines)[1..] == lines;
  }

  lemma GlueGlue(r: string, c: char, lines: seq<string>)
    ensures Glue(r, Glue([c], lines)) == Glue(r + [c], lines)
  {
    if |lines| > 0 {
      assert r + ([c] + lines[0]) == (r + [c]) + lines[0];
    }
  }

  // ---------------------------------------------------------------- non-space content

  /** The characters of `s` that are not whitespace, in order. */
  function NonSpace(s: string): (r: string)
    ensures |r| <= |s|
    ensures forall k :: 0 <= k < |r| ==> !IsSpace(r[k])
    decreases |s|
  {
    if |s| == 0 then ""
    else (if IsSpace(s[0]) then "" else [s[0]]) + NonSpace(s[1..])
  }

  lemma {:induction false} NonSpaceConcat(a: string, b: string)
    ensures NonSpace(a + b) == NonSpace(a) + NonSpace(b)
    decreases |a|
  {
    if |a| == 0 {
      assert a + b == b;
    } else {
      var h := if IsSpace(a[0]) then "" else [a[0]];
      assert (a + b)[0] == a[0];
      assert (a + b)[1..] == a[1..] + b;
      assert NonSpace(a + b) == h + NonSpace(a[1..] + b);
      NonSpaceConcat(a[1..], b);
      assert h + (NonSpace(a[1..]) + NonSpace(b)) == (h + NonSpace(a[1..])) + NonSpace(b);
    }
  }

  lemma {:induction false} NonSpaceAllSpace(s: string)
    requires AllSpace(s)
    ensures NonSpace(s) == ""
    decreases |s|
  {
    if |s| > 0 {
      assert IsSpace(s[0]);
      assert AllSpace(s[1..]) by {
        forall k | 0 <= k < |s[1..]| ensures IsSpace(s[1..][k]) { assert s[1..][k] == s[k + 1]; }
      }
      NonSpaceAllSpace(s[1..]);
    }
  }

  /** Whitespace around a text adds nothing to its non-space content. */
  lemma NonSpaceSurrounded(pre: string, r: string, post: string)
    requires AllSpace(pre) && AllSpace(post)
    ensures NonSpace(pre + (r + post)) == NonSpace(r)
  {
    NonSpaceAllSpace(pre);
    NonSpaceAllSpace(post);
    NonSpaceConcat(pre, r + post);
    NonSpaceConcat(r, post);
  }

  /** A slice with only whitespace outside it has the whole text's non-space content. */
  lemma NonSpaceOfSlice(s: string, lo: nat, n: nat)
    requires lo + n <= |s|
    requires forall k :: 0 <= k < lo ==> IsSpace(s[k])
    requires forall k :: lo + n <= k < |s| ==> IsSpace(s[k])
    ensures NonSpace(s[lo..][..n]) == NonSpace(s)
  {
    var pre, r, post := s[..lo], s[lo..][..n], s[lo + n..];
    SliceParts(s, lo, n);
    assert AllSpace(pre) by {
      forall k | 0 <= k < |pre| ensures IsSpace(pre[k]) { assert pre[k] == s[k]; }
    }
    assert AllSpace(post) by {
      forall k | 0 <= k < |post| ensures IsSpace(post[k]) { assert post[k] == s[lo + n + k]; }
    }
    NonSpaceSurrounded(pre, r, post);
  }

  /** A text is the part before a slice, the slice, and the part after it. */
  lemma SliceParts(s: string, lo: nat, n: nat)
    requires lo + n <= |s|
    ensures s == s[..lo] + (s[lo..][..n] + s[lo + n..])
  {
    assert s[lo..] == s[lo..][..n] + s[lo + n..];
  }

  /** `strip()` removes whitespace only, so the non-space content is unchanged. */
  lemma NonSpaceStrip(s: string)
    ensures NonSpace(Strip(s)) == NonSpace(s)
  {
    StripRemovesOnlySpace(s);
    NonSpaceOfSlice(s, |s| - |LStrip(s)|, |Strip(s)|);
  }

  /** Line boundaries are whitespace, so dropping them keeps the non-space content. */
  lemma {:induction false} NonSpaceDropLineBreaks(s: string)
    ensures NonSpace(DropLineBreaks(s)) == NonSpace(s)
    decreases |s|
  {
    if |s| > 0 {
      NonSpaceDropLineBreaks(s[1..]);
      var h := if IsLineBreak(s[0]) then "" else [s[0]];
      NonSpaceConcat(h, DropLineBreaks(s[1..]));
    }
  }

  /** Concatenation (`"".join`) of two lists one after the other. */
  lemma {:induction false} JoinEmptyConcat(a: seq<string>, b: seq<string>)
    ensures Join("", a + b) == Join("", a) + Join("", b)
    decreases |b|
  {
    if |b| == 0 {
      assert a + b == a;
    } else {
      var init, last := b[..|b| - 1], b[|b| - 1];
      assert b == init + [last];
      assert a + b == (a + init) + [last];
      JoinEmptyConcat(a, init);
      JoinEmptyAppend(a + init, last);
      JoinEmptyAppend(init, last);
    }
  }

  /** The non-space content of glued pieces is that of each part in turn. */
  lemma NonSpaceJoinConcat(a: seq<string>, b: seq<string>)
    ensures NonSpace(Join("", a + b)) == NonSpace(Join("", a)) + NonSpace(Join("", b))
  {
    JoinEmptyConcat(a, b);
    NonSpaceConcat(Join("", a), Join("", b));
  }

  lemma NonSpaceJoinAppend(a: seq<string>, x: string)
    ensures NonSpace(Join("", a + [x])) == NonSpace(Join("", a)) + NonSpace(x)
  {
    JoinEmptyAppend(a, x);
    NonSpaceConcat(Join("", a), x);
  }

  /** Joining with a whitespace separator has the same non-space content as plain concatenation. */
  lemma {:induction false} NonSpaceJoinSpaced(sep: string, parts: seq<string>)
    requires AllSpace(sep)
    ensures NonSpace(Join(sep, parts)) == NonSpace(Join("", parts))
    decreases |parts|
  {
    if |parts| >= 2 {
      var rest := Join(sep, parts[1..]);
      NonSpaceJoinSpaced(sep, parts[1..]);
      NonSpaceConcat(parts[0] + sep, rest);
      NonSpaceConcat(parts[0], sep);
      NonSpaceAllSpace(sep);
      NonSpaceConcat(parts[0] + "", Join("", parts[1..]));
      assert parts[0] + "" == parts[0];
    }
  }

  // ---------------------------------------------------------------- search and case

  /** Python's `s.rfind(c)`: the last index holding `c`, or -1. */
  function LastIndexOf(s: string, c: char): (r: int)
    ensures -1 <= r < |s|
    ensures r >= 0 ==> s[r] == c
    ensures forall k :: r < k < |s| ==> s[k] != c
    decreases |s|
  {
    if |s| == 0 then -1
    else if s[|s| - 1] == c then |s| - 1
    else LastIndexOf(s[..|s| - 1], c)
  }

  /** Appending text free of `c` leaves the last occurrence of `c` where it was. */
  lemma LastIndexOfAppend(x: string, y: string, c: char)
    requires c !in y
    ensures LastIndexOf(x + y, c) == LastIndexOf(x, c)
  {
    var r := LastIndexOf(x + y, c);
    var r0 := LastIndexOf(x, c);
    if r0 >= 0 {
      assert (x + y)[r0] == c;
    }
    if 0 <= r < |x| {
      assert x[r] == c;
    }
  }

  function LowerChar(c: char): char
  {
    if 'A' <= c <= 'Z' then (c as int + 32) as char else c
  }

  /** Lower-casing leaves no upper-case ASCII letter and changes no "." or "/". */
  lemma LowerCharFacts(c: char)
    ensures !('A' <= LowerChar(c) <= 'Z')
    ensures LowerChar(c) == '.' <==> c == '.'
    ensures LowerChar(c) == '/' <==> c == '/'
  {
  }

  /** `str.lower()` restricted to ASCII letters. */
  function AsciiLower(s: string): (r: string)
    ensures |r| == |s|
    ensures forall k :: 0 <= k < |s| ==> r[k] == LowerChar(s[k])
  {
    seq(|s|, k requires 0 <= k < |s| => LowerChar(s[k]))
  }
}
